=== FILE: README.md ===
# eArc-transform, modelled in Dafny

eArc-transform maps properties between two data instances. Each instance is a PHP array or an object. A *configuration* is an ordered list of rows. Each row names a source property and a target property, and gives a forward and a reverse transform. A transform is `false` (skip the row), `true` (copy the value) or a callable `(read value, current value) -> new value`. The *Transformer* walks the rows in order. It reads from one side and writes into the other, in place. Strict mode turns a missing property into a `PropertyMissingException`; non-strict mode skips the row. The *ConfigurationFactory* keeps a registry of configurations keyed by a pair of class names. It can derive a canonical configuration from two sample instances, wiring nested object pairs to their registered configurations.

Files:

- `php_values.dfy` (`PhpValues`): names (`int|string`), values, errors, class chains and object instances. An object's class is a chain of levels: the class itself first, then its parents. Each level lists the properties reflection reports for it, with their declared defaults. Also the decimal rendering of integers that PHP uses when it concatenates an int.
- `ordered_maps.dfy` (`OrderedMaps`): a PHP array as an insertion-ordered map. Assigning to an existing key replaces its value in place; assigning to a new key appends it.
- `configuration_row.dfy` (`ConfigurationRows`): the immutable row, its constructor defaults and its getters. Being a datatype value, a row cannot change after construction.
- `configuration.dfy` (`Configurations`): the `Configuration` class. It has an ordered table keyed by `'_'.sourceName`, the constructor (row objects or positional tuples), `Add` and `GetIterator`.
- `transformer.dfy` (`Transformers`): `GetValue`/`SetValue`, which walk the parent chain. Also the per-row semantics (`Step`), the walk over all rows (`Run`), the `Transformer` class with its four shape-specific loops, and the properties proved about them.
- `configuration_factory.dfy` (`ConfigurationFactories`): the registry, candidate enumeration, the row-shape decision and `BuildCanonicalConfig`.
- `scenarios.dfy` (`Scenarios`): a worked forward-and-back example.

The four `Transformer` loops are methods. Each is proved equal to the pure function `Run` applied to the configuration's rows: an array passed by reference comes back as a new value, and an object's fields are updated in place. The properties are proved about `Run` and `Step`.

Some behaviours of the code are easy to misread; the model follows the code:

- If the factory meets a pair of objects whose classes have no registered configuration, it emits `[name, null, null, null]`, not a plain `[name]`. Building a `Configuration` from such a row fails with a `TypeError`, because `add` takes `bool|callable`.
- In non-strict mode, a missing property on the written object is swallowed like any other miss (src/Transformer.php:122-126, 146-150). It is not rethrown.
- With the configuration `[["a"], ["b", "c", double, halve]]`, the reverse walk leaves `{b: 5}`, not `{a: 1, b: 5}`. The row `["a"]` has reverse transform `false` by default (`Scenarios.DoubleHalveScenario`).
- Under `strict_types`, an integer array key reaching `getPropertyValue` is a `TypeError`, and the factory does not catch it.
- The factory's wired rows use the reverse closure as written, which returns its first argument (see "## Findings"). `WiredEntryCorrected` is the intended variant, used only to state the intended property.

## Model

| member | source | states |
|---|---|---|
| `OrderedMaps.PutSpec` | src/Configuration.php:40-45 | assigning a key stores the value there, keeps every other entry and the order of existing keys, and appends the key only if it is new |
| `OrderedMaps.OverwriteKeepsPosition` | src/Configuration.php:40-54 | overwriting an existing key keeps its iteration position and the entry count; only that entry's value changes |
| `OrderedMaps.OrderedMap.Values` | src/Configuration.php:50-55 | iteration yields one value per key, in key order |
| `ConfigurationRows.NewRow` | src/helper/ConfigurationRow.php:19-44 | the getters return the constructor's source name and transforms unchanged; the target name is the given one, or the source name when none is given |
| `ConfigurationRows.NewRowDefaults` | src/helper/ConfigurationRow.php:19-24 | constructor defaults: no target name (so it reads as the source name), transform `true`, reverse transform `false` |
| `Configurations.SameKey` | src/Configuration.php:26-40 | two source names share a table key iff they are equal or one is the int and the other its decimal string (`1` and `"1"` both map to `_1`) |
| `Configurations.EntryRow` | src/Configuration.php:24-35 | a row object is stored as it is; a tuple gets target null, transform `true` and reverse transform `false` for its absent positions |
| `Configurations.FromEntriesKeys` | src/Configuration.php:22-35 | after construction a key is present iff some entry has that key |
| `Configurations.FromEntriesLastWins` | src/Configuration.php:22-35 | the row stored under a key is that of the last entry with that key |
| `Configurations.FromEntriesSize` | src/Configuration.php:22-35 | the table never holds more rows than entries were given |
| `Configurations.Configuration.constructor` | src/Configuration.php:22-35 | the loop stores the entries in order, each under `'_'.sourceName`, giving the table `FromEntries` describes |
| `Configurations.Configuration.Add` | src/Configuration.php:38-48 | stores a new row under `'_'.sourceName`, replacing any row there in place, and returns the same object |
| `Configurations.Configuration.GetIterator` | src/Configuration.php:50-55 | yields every stored row exactly once, in key order |
| `Configurations.AddKeepsPosition` | src/Configuration.php:38-55 | re-adding a source name replaces its row at the same iteration position and leaves all other rows unchanged |
| `Transformers.FirstDeclaring` | src/Transformer.php:157-161 | finds the first class from the object's own class upwards that declares the name, or reports that none does |
| `Transformers.LookupDefault` | src/Transformer.php:155-167 | an object read returns the declared default of the first declaring class, not the current value; PropertyMissing iff no class declares the name; TypeError for an int name |
| `Transformers.GetValue` | src/Transformer.php:155-167 | the parent-chain loop computes exactly `LookupDefault` |
| `Transformers.SetValue` | src/Transformer.php:169-180 | sets the field iff some class in the chain declares it; otherwise PropertyMissing (TypeError for an int name) and the object is unchanged |
| `Transformers.Effect` | src/Transformer.php:59-73 | a row writes only after its read succeeded; within the model, a TypeError comes only from an int name on an object side (the `string` parameter of `getValue`/`setValue`); property types and `readonly` are not modelled |
| `Transformers.Step` | src/Transformer.php:59-74 | a row whose active transform is `false` does nothing; a thrown exception leaves the write side untouched; PropertyMissing escapes only in strict mode, and TypeError (from an int name on an object side) is the only other exception the model raises |
| `Transformers.Run` | src/Transformer.php:58-75 | the walk keeps the write side's shape and class chain; it ends with a TypeError, with a PropertyMissing only when strict, or without error |
| `Transformers.RunStopsAtError` | src/Transformer.php:58-75 | once a prefix of the rows has thrown, later rows change nothing |
| `Transformers.ThrowAbortsKeepingEarlierWrites` | src/Transformer.php:58-66 | a throw on row k ends the walk with that exception, and the writes of rows before k remain |
| `Transformers.RunAppend` | src/Transformer.php:58-75 | rows are applied in configuration order: running `a ++ b` runs `a`, then `b` from where `a` stopped |
| `Transformers.SkippedRowIsInert` | src/Transformer.php:59-74 | a row whose active transform is `false` can be removed without changing the result or the error, in strict mode too |
| `Transformers.ReverseIsFlippedForward` | src/Transformer.php:59-68 | reverse reads the target name and writes the source name with the reverse transform: it is the forward walk of the rows with names and transforms swapped |
| `Transformers.NonStrictSwallowsMisses` | src/Transformer.php:116-126 | in non-strict mode no PropertyMissing escapes; between two arrays the walk always completes |
| `Transformers.StrictArrayMissThrows` | src/Transformer.php:61-67 | in strict mode an array walk throws iff some active row's read key is absent, and then only PropertyMissing |
| `Transformers.ArrayRowSemantics` | src/Transformer.php:59-74 | array row: skip leaves the target; a missing key throws (strict) or skips; otherwise key `writeName` is set to the read value (`true`) or `f(read, current or null)` |
| `Transformers.ArrayRowShape` | src/Transformer.php:70-73 | a row writing an array leaves it unchanged or assigns only its write name |
| `Transformers.RowIntoArray` | src/Transformer.php:86-91 | from either read side, a row whose read succeeds sets key `writeName` of the array to the read value (`true`) or to `f(read value, current value or null)`, and throws nothing |
| `Transformers.ObjectRowSemantics` | src/Transformer.php:138-150 | a row writing an object leaves its fields unchanged, or sets exactly the write name, which some class in the chain declares; with `true` from an object it writes the declared default |
| `Transformers.ObjectRowWrites` | src/Transformer.php:116-145 | a row whose read succeeds and whose write name the target declares sets exactly that field, to the read value (`true`) or to `f(read value, declared default of the first declaring class)`, and throws nothing |
| `Transformers.ObjectReadMiss` | src/Transformer.php:86-96 | a read from an object that no class in the chain declares skips the row when not strict and is rethrown when strict; the write side is unchanged |
| `Transformers.ReadMissAnySide` | src/Transformer.php:109-115 | a read miss from an array or an object skips the row when not strict and is rethrown when strict, leaving the write side, array or object, unchanged |
| `Transformers.ObjectWriteMiss` | src/Transformer.php:116-126 | a write name that no class of the target declares misses at the current-value read or at `setValue`; the row is skipped when not strict and rethrown when strict |
| `Transformers.ArrayRunChangesOnlyWriteNames` | src/Transformer.php:58-75 | after a walk into an array, the old keys keep their order at the front, and a key written by no active row keeps its old value |
| `Transformers.ForwardCopies` | src/Transformer.php:55-76 | forward, each copy-both-ways row with distinct target names leaves the source value under its target name |
| `Transformers.ReverseCopiesBack` | src/Transformer.php:55-76 | in reverse, each source name gets back the value held under its target name |
| `Transformers.ArrayRoundTrip` | src/Transformer.php:28-76 | `transform` then `reverseTransform` between arrays restores `src[sourceName]` for every copy-both-ways row, given distinct target names and all source keys present |
| `Transformers.Transformer.constructor` | src/Transformer.php:23-26 | the transformer keeps the configuration it is given |
| `Transformers.Transformer.Transform` | src/Transformer.php:28-31 | forward walk: reads `source` and writes `target`, as `Run` with `isReverse = false` |
| `Transformers.Transformer.ReverseTransform` | src/Transformer.php:33-36 | reverse walk: reads its first argument (the target) and writes its second (the source) |
| `Transformers.Transformer.ProcessTransformation` | src/Transformer.php:38-53 | dispatches on the shapes of the two sides; an object target is updated in place, an array target comes back updated |
| `Transformers.Transformer.TransformArrayToArray` | src/Transformer.php:55-76 | the loop computes `Run` for array to array |
| `Transformers.Transformer.TransformObjectToArray` | src/Transformer.php:78-99 | the loop computes `Run` for object to array; object misses are caught unless strict |
| `Transformers.Transformer.TransformArrayToObject` | src/Transformer.php:101-129 | the loop computes `Run` for array to object; the current value is the declared default |
| `Transformers.Transformer.TransformObjectToObject` | src/Transformer.php:131-153 | the loop computes `Run` for object to object |
| `Transformers.Transformer.TransformIntoObject` | src/Transformer.php:137-152 | the `foreach` shared by both object targets computes `Run` in place on the object's fields |
| `Transformers.Transformer.ApplyRowToObject` | src/Transformer.php:138-150 | one row of an object target, with its `try`/`catch`, changes the fields and throws exactly as `Step` says; the read goes through the helper `ReadFrom` (array key or `getValue`) |
| `ConfigurationFactories.CanonicalConfigRow` | src/util/ConfigurationFactory.php:106-134 | plain row unless both values are object-or-array and one is an object; `get_class` on an array is a TypeError; two objects give a row wired iff their class pair is registered |
| `ConfigurationFactories.ChainCandidatesAreDeclaredDefaults` | src/util/ConfigurationFactory.php:66-81 | a candidate of an object source is exactly a property some class of its chain declares, paired with its declared default |
| `ConfigurationFactories.ChainCandidatesInOrder` | src/util/ConfigurationFactory.php:68-81 | candidates come class by class, own class first, each class's properties in order; property `i` of class `k` follows the properties of the classes before `k`, so a name declared on two classes is a candidate twice |
| `ConfigurationFactories.ChainCandidates` | src/util/ConfigurationFactory.php:68-81 | there is one candidate per property reported, summed over the class and all its parents |
| `ConfigurationFactories.ArrayCandidates` | src/util/ConfigurationFactory.php:51-55 | an array source yields one candidate per key, in key order, with that key's value |
| `ConfigurationFactories.GetPropertyValue` | src/util/ConfigurationFactory.php:94-104 | an int name is a TypeError; an array target gives the key's value, or null when absent; an object target gives the property's current value (null when unset), and a ReflectionException when its own class does not declare it |
| `ConfigurationFactories.CanonicalRows` | src/util/ConfigurationFactory.php:50-61 | the derivation over the candidates in order raises only TypeError (ReflectionExceptions are swallowed), and gives at most one row per candidate |
| `ConfigurationFactories.NextRows` | src/util/ConfigurationFactory.php:52-60 | one candidate adds at most one row, and raises only TypeError |
| `ConfigurationFactories.ArrayTargetKeepsEveryCandidate` | src/util/ConfigurationFactory.php:50-63 | with an array target, each string-keyed candidate gives exactly one row, in order, even when the target lacks the key |
| `ConfigurationFactories.IntKeyIsTypeError` | src/util/ConfigurationFactory.php:94-98 | an int source key reaching `getPropertyValue` aborts the derivation with a TypeError |
| `ConfigurationFactories.ObjectTargetDropsUndeclared` | src/util/ConfigurationFactory.php:94-104 | with an object target, rows exist only for properties its class declares, and every declared candidate gets a row |
| `ConfigurationFactories.NestedForwardKeepsTargetObject` | src/util/ConfigurationFactory.php:123-127 | when the source's nested value is an array or object and the target's is an object, a wired row run forward between arrays writes back the target's own nested object, the one the nested transform updated |
| `ConfigurationFactories.NestedReverseKeepsSourceObject` | src/util/ConfigurationFactory.php:128-132 | when the target's nested value is an array or object and the source's is an object, reversing a wired row with the corrected closure between arrays writes back the source's own nested object |
| `ConfigurationFactories.NestedReverseAsWrittenAliasesTarget` | src/util/ConfigurationFactory.php:128-132 | as written, when both nested values are arrays or objects, reversing a wired row between arrays sets the source's key to the target's nested value |
| `ConfigurationFactories.NestedReverseAsWrittenLosesSourceObject` | src/util/ConfigurationFactory.php:128-132 | a concrete case: after the reverse step, the source holds the target's object `B#2` instead of its own `A#1` |
| `ConfigurationFactories.ToEntry` | src/util/ConfigurationFactory.php:112-133 | `[name]` becomes a copy-forward, skip-reverse row named `name`; a wired row gets the forward closure and the reverse closure as written |
| `ConfigurationFactories.ToEntries` | src/util/ConfigurationFactory.php:39-42 | the canonical rows become tuples one for one, in order |
| `ConfigurationFactories.BuiltConfigLastWins` | src/util/ConfigurationFactory.php:39-42 | in the built configuration, duplicate names collapse and the last row wins |
| `ConfigurationFactories.ConfigurationFactory.RegisterConfiguration` | src/util/ConfigurationFactory.php:25-30 | stores the configuration at `[src ?? '!object'][tgt ?? '!object']`, leaves all other pairs, returns the factory |
| `ConfigurationFactories.ConfigurationFactory.UnregisterConfiguration` | src/util/ConfigurationFactory.php:32-37 | removes only that pair; removing an absent pair changes nothing |
| `ConfigurationFactories.ConfigurationFactory.GetCanonicalConfig` | src/util/ConfigurationFactory.php:44-84 | computes `CanonicalRows` of the source's candidates against the target |
| `ConfigurationFactories.ConfigurationFactory.ScanKeys` | src/util/ConfigurationFactory.php:50-63 | the loop over an array source's keys computes `CanonicalRows` of its candidates |
| `ConfigurationFactories.ConfigurationFactory.ScanChain` | src/util/ConfigurationFactory.php:66-83 | the loop over the class and each parent computes `CanonicalRows` of the chain's candidates |
| `ConfigurationFactories.ConfigurationFactory.NextRow` | src/util/ConfigurationFactory.php:52-60 | one `try` block: an int name is a TypeError, a ReflectionException leaves the rows as they were, otherwise exactly one row named after the candidate is appended (or `getCanonicalConfigRow`'s TypeError escapes) |
| `ConfigurationFactories.ConfigurationFactory.ScanLevel` | src/util/ConfigurationFactory.php:69-80 | the inner loop over one class's properties extends the rows as `CanonicalRows` does |
| `ConfigurationFactories.ConfigurationFactory.BuildCanonicalConfig` | src/util/ConfigurationFactory.php:39-42 | a new `Configuration` from the canonical rows, with the closures as written; TypeError if the derivation raises or a row is unwired |
| `Scenarios.ScenarioConfiguration` | src/Configuration.php:28-33 | the tuples `["a"]` and `["b", "c", f, g]` become two rows under `_a` and `_b`, with defaults filled in |
| `Scenarios.DoubleHalveScenario` | src/Transformer.php:55-76 | `{a: 1, b: 5}` maps forward to `{a: 1, c: 10}`; the reverse walk yields `{b: 5}` |

## Findings

| source | as written | input that shows it | evidently intended | confidence | as-written member | corrected member |
|---|---|---|---|---|---|---|
| src/util/ConfigurationFactory.php:128-132 | the reverse closure `function($target, $source)` runs `reverseTransform($target, $source)` and then returns `$target`, the value read from the target side | `$target = ['p' => $b]`, `$source = ['p' => $a]`, where `$a` and `$b` are objects of a registered class pair; after `reverseTransform($target, $source)`, `$source['p']` is `$b` and no longer the updated `$a` | return `$source`, the object the nested reverse transform updated, mirroring the forward closure | medium, not executed | `ConfigurationFactories.NestedReverseAsWrittenAliasesTarget` | `ConfigurationFactories.NestedReverseKeepsSourceObject` |

`ToEntry` and `BuildCanonicalConfig` build the closure as written. The corrected closure `NestedReverse` appears only in `WiredEntryCorrected`, where its property is proved.

## Left out

- PHP array key coercion: `"1"` and `1` are different keys in the model's arrays. The coercion does show in configuration keys (`SameKey`).
- Reflection details: visibility, `setAccessible` and `getProperty`'s rules for inherited members. Each level lists the properties reflection reports for that class. `getPropertyValue` consults only the object's own class.
- Object fields are keyed by name alone, so private properties with the same name on two classes of one chain share a slot.
- Reading an uninitialised typed property raises an `Error` in PHP. The model reads it as null.
- NestedForward, NestedReverse: the closures return their write-side argument unchanged. For an object this is the instance the nested transform updated, since objects are handles. For a nested array, PHP passes the closure's by-value copy by reference to `transform`/`reverseTransform` and returns it after the nested walk; the model returns the array as it was. The lemmas about the closures therefore require that write-side value to be an object. The side effect of the nested walk on nested objects, running the registered configuration, is not modelled either.
- Property types and `readonly` are not modelled: `ReflectionProperty::setValue` (src/Transformer.php:179) can raise a TypeError for a value of the wrong type, or an Error for a readonly property. The model writes the value in both cases.
- The nested closures pass their arguments to `transform`/`reverseTransform`, whose parameters are typed `array|object`. A null, absent or scalar nested value therefore raises a TypeError in PHP. The model returns the value without error, and the lemmas about wired rows assume both nested values are arrays or objects.
- Custom transforms are pure total functions of (read value, current value). A callable that throws or has side effects is not modelled.
- A `Configuration` given to the constructor is modelled as the row entries its iteration yields.
- Tuples without index 0, and tuple values that are neither `bool` nor callable, are not modelled. The factory's null transforms are the one exception: they are the TypeError in `BuildCanonicalConfig`.
- The interfaces and the exception class are declarations only. The exception is the `PropertyMissing` error value.
- ScanChain: the `do … while` over the parent chain is a `while` loop. The two agree because every object has at least one class.

=== FILE: configuration.dfy ===
/**
 * Configuration: an insertion-ordered table of rows, keyed by `'_'` followed
 * by the row's source name, where adding a row for a source name that is
 * already present replaces the stored row in place.
 */
module Configurations {
  import opened PhpValues
  import opened OrderedMaps
  import opened ConfigurationRows

  /** The table key of a source name: `'_'.$sourcePropertyName`. */
  function Key(name: Name): string {
    "_" + NameString(name)
  }

  /** Two source names share a table key exactly when they are equal or one is
      an integer and the other its decimal string. */
  lemma SameKey(a: Name, b: Name)
    ensures Key(a) == Key(b) <==>
      a == b ||
      (a.NInt? && b == NStr(IntToDecimal(a.i))) ||
      (b.NInt? && a == NStr(IntToDecimal(b.i)))
  {
    if Key(a) == Key(b) {
      assert NameString(a) == Key(a)[1..] == Key(b)[1..] == NameString(b);
      if a.NInt? && b.NInt? {
        IntToDecimalInjective(a.i, b.i);
      }
    }
  }

  /** One element of the array given to the constructor: a row object, or a
      positional tuple `[source, target?, transform?, reverseTransform?]`
      where an absent position is `None`. */
  datatype Entry =
    | RowEntry(row: Row)
    | TupleEntry(
        source: Name,
        target: Option<Name>,
        transform: Option<Transform>,
        reverseTransform: Option<Transform>)

  /** The row an entry contributes: a row object as it is, a tuple through
      `add` with the defaults null, `true` and `false`. */
  function EntryRow(e: Entry): (r: Row)
    ensures e.RowEntry? ==> r == e.row
    ensures e.TupleEntry? ==>
      r.SourcePropertyName() == e.source &&
      r.TargetPropertyName() == (if e.target.Some? then e.target.value else e.source) &&
      r.transform == (if e.transform.Some? then e.transform.value else Identity) &&
      r.reverseTransform == (if e.reverseTransform.Some? then e.reverseTransform.value else Skip)
  {
    match e
    case RowEntry(row) => row
    case TupleEntry(s, t, f, rf) =>
      NewRow(
        s, t,
        if f.Some? then f.value else Identity,
        if rf.Some? then rf.value else Skip)
  }

  function EntryKey(e: Entry): string {
    Key(EntryRow(e).SourcePropertyName())
  }

  /** The table the constructor leaves behind: entries stored one after the
      other, each under its key. */
  function FromEntries(entries: seq<Entry>): (m: OrderedMap<string, Row>)
    ensures m.Valid()
  {
    if entries == [] then Empty()
    else
      var before := FromEntries(entries[..|entries| - 1]);
      var e := entries[|entries| - 1];
      PutSpec(before, EntryKey(e), EntryRow(e));
      before.Put(EntryKey(e), EntryRow(e))
  }

  /** A key is stored exactly when some entry has it. */
  lemma {:induction false} FromEntriesKeys(entries: seq<Entry>, k: string)
    ensures k in FromEntries(entries).values <==>
      exists i :: 0 <= i < |entries| && EntryKey(entries[i]) == k
  {
    if entries != [] {
      var n := |entries| - 1;
      var init := entries[..n];
      FromEntriesKeys(init, k);
      PutSpec(FromEntries(init), EntryKey(entries[n]), EntryRow(entries[n]));
      if k in FromEntries(init).values {
        var i :| 0 <= i < n && EntryKey(init[i]) == k;
        assert entries[i] == init[i];
      }
      if i :| 0 <= i < n && EntryKey(entries[i]) == k {
        assert init[i] == entries[i];
      }
    }
  }

  /** The key of entry `i` holds that entry's row when no later entry has
      the same key: later entries win. */
  lemma {:induction false} FromEntriesLastWins(entries: seq<Entry>, i: nat)
    requires i < |entries|
    requires forall j :: i < j < |entries| ==> EntryKey(entries[j]) != EntryKey(entries[i])
    ensures EntryKey(entries[i]) in FromEntries(entries).values
    ensures FromEntries(entries).values[EntryKey(entries[i])] == EntryRow(entries[i])
  {
    var n := |entries| - 1;
    var init := entries[..n];
    PutSpec(FromEntries(init), EntryKey(entries[n]), EntryRow(entries[n]));
    if i < n {
      assert init[i] == entries[i];
      FromEntriesLastWins(init, i);
    }
  }

  /** The table never holds more rows than entries were given. */
  lemma {:induction false} FromEntriesSize(entries: seq<Entry>)
    ensures |FromEntries(entries).keys| <= |entries|
  {
    if entries != [] {
      var n := |entries| - 1;
      FromEntriesSize(entries[..n]);
      PutSpec(FromEntries(entries[..n]), EntryKey(entries[n]), EntryRow(entries[n]));
    }
  }

  class Configuration {
    /** `$config`: key `'_'.sourceName` to row, in insertion order. */
    var config: OrderedMap<string, Row>

    ghost predicate Valid()
      reads this
    {
      config.Valid()
    }

    /** The rows in iteration order. */
    function Rows(): seq<Row>
      reads this
      requires Valid()
    {
      config.Values()
    }

    /** `new Configuration($config)`: row objects are stored as they are,
        tuples go through `Add` with positional defaults. A Configuration
        passed as argument is modelled as the row entries its iteration
        yields. */
    constructor (entries: seq<Entry>)
      ensures Valid()
      ensures config == FromEntries(entries)
    {
      config := Empty();
      new;
      for i := 0 to |entries|
        invariant Valid()
        invariant config == FromEntries(entries[..i])
      {
        assert entries[..i + 1][..i] == entries[..i];
        match entries[i]
        case RowEntry(row) =>
          config := config.Put(Key(row.SourcePropertyName()), row);
        case TupleEntry(s, t, f, rf) =>
          var _ := Add(s, t, if f.Some? then f.value else Identity, if rf.Some? then rf.value else Skip);
      }
      assert entries[..|entries|] == entries;
    }

    /** Stores a new row under `'_'.sourcePropertyName`, replacing any row
        stored there, and returns this configuration for chaining. */
    method Add(
      sourcePropertyName: Name,
      targetPropertyName: Option<Name> := None,
      transform: Transform := Identity,
      reverseTransform: Transform := Skip)
      returns (self: Configuration)
      requires Valid()
      modifies this
      ensures self == this && Valid()
      ensures config == old(config).Put(
        Key(sourcePropertyName),
        NewRow(sourcePropertyName, targetPropertyName, transform, reverseTransform))
    {
      var row := NewRow(sourcePropertyName, targetPropertyName, transform, reverseTransform);
      PutSpec(config, Key(sourcePropertyName), row);
      config := config.Put(Key(sourcePropertyName), row);
      self := this;
    }

    /** `getIterator`: yields every stored row once, in key order. */
    method GetIterator() returns (rows: seq<Row>)
      requires Valid()
      ensures rows == Rows()
    {
      rows := [];
      for i := 0 to |config.keys|
        invariant |rows| == i
        invariant forall j :: 0 <= j < i ==> rows[j] == config.values[config.keys[j]]
      {
        rows := rows + [config.values[config.keys[i]]];
      }
    }
  }

  /** Replacing the row of a source name that is already present keeps its
      iteration position and the number of rows, and changes no other row. */
  lemma AddKeepsPosition(m: OrderedMap<string, Row>, i: nat, r: Row)
    requires m.Valid() && i < |m.keys| && m.keys[i] == Key(r.SourcePropertyName())
    ensures m.Put(Key(r.SourcePropertyName()), r).Values() == m.Values()[i := r]
  {
    OverwriteKeepsPosition(m, i, r);
  }
}

=== FILE: configuration_factory.dfy ===
/**
 * ConfigurationFactory: a registry of configurations keyed by a pair of class
 * names, and the derivation of a canonical configuration from two sample
 * instances, one row per property of the source, with rows for nested
 * object pairs wired to the registered configuration of their classes.
 */
module ConfigurationFactories {
  import opened PhpValues
  import opened OrderedMaps
  import opened ConfigurationRows
  import opened Configurations
  import opened Transformers

  /** The registry key used for a class given as null. */
  const IS_NOT_OBJECT: string := "!object"

  function ClassKey(c: Option<string>): string {
    if c.Some? then c.value else IS_NOT_OBJECT
  }

  type Registry = map<string, map<string, Configuration>>

  /** `$this->configurations[$s][$t]`, when set. */
  function Lookup(reg: Registry, s: string, t: string): Option<Configuration> {
    if s in reg && t in reg[s] then Some(reg[s][t]) else None
  }

  // ---------------------------------------------------------------------
  // Canonical rows.

  /** A row of the canonical configuration as the positional tuple the
      factory returns: `[name]`, or `[name, null, fwd, rev]` where the two
      closures run the configuration registered for the pair of classes, or
      `[name, null, null, null]` when no configuration is registered. */
  datatype CanonicalRow =
    | Plain(name: string)
    | Nested(name: string, wiring: Option<(string, string)>)

  /** `getCanonicalConfigRow`: a plain row unless both values are objects or
      arrays and at least one is an object. Then `get_class` is applied to
      both, which raises a TypeError on an array; for two objects the row
      is wired to the registered configuration of their class pair, if any. */
  function CanonicalConfigRow(name: string, sourceValue: Value, targetValue: Value, reg: Registry): (r: Result<CanonicalRow>)
    ensures r.Ok? && r.value.Plain? <==>
      !(IsObjectOrArray(sourceValue) && IsObjectOrArray(targetValue) &&
        (sourceValue.VObject? || targetValue.VObject?))
    ensures r.Err? <==>
      (sourceValue.VObject? && targetValue.VArray?) || (sourceValue.VArray? && targetValue.VObject?)
    ensures r.Err? ==> r.error == TypeError
    ensures r.Ok? ==> r.value.name == name
    ensures r.Ok? && r.value.Nested? ==>
      sourceValue.VObject? && targetValue.VObject? &&
      (r.value.wiring.Some? <==> Lookup(reg, sourceValue.className, targetValue.className).Some?) &&
      (r.value.wiring.Some? ==> r.value.wiring.value == (sourceValue.className, targetValue.className))
  {
    if !IsObjectOrArray(sourceValue) || !IsObjectOrArray(targetValue)
       || (!sourceValue.VObject? && !targetValue.VObject?)
    then Ok(Plain(name))
    else if !sourceValue.VObject? || !targetValue.VObject? then Err(TypeError)
    else
      var pair := (sourceValue.className, targetValue.className);
      Ok(Nested(name, if Lookup(reg, pair.0, pair.1).Some? then Some(pair) else None))
  }

  /** What `getPropertyValue` finds for a name on the target. */
  datatype Probe = Found(value: Value) | NotDeclared | BadName

  /** `getPropertyValue`: an int name is a TypeError (the parameter is typed
      `string`); an array gives the key's value, null when absent; an object
      gives the current value of a property its class declares, and a
      ReflectionException (`NotDeclared`) otherwise. */
  function GetPropertyValue(target: WriteSide, name: Name): (r: Probe)
    ensures r.BadName? <==> name.NInt?
    ensures target.WriteArray? && name.NStr? ==>
      r.Found? && (name in target.arr.values ==> r.value == target.arr.values[name]) &&
      (name !in target.arr.values ==> r.value == VNull)
    ensures target.WriteObject? && name.NStr? ==>
      (r.NotDeclared? <==> |target.chain| == 0 || !Declares(target.chain[0], name.s))
    ensures target.WriteObject? && r.Found? && name.s in target.fields ==> r.value == target.fields[name.s]
    ensures target.WriteObject? && r.Found? && name.s !in target.fields ==> r.value == VNull
  {
    match name
    case NInt(_) => BadName
    case NStr(s) =>
      match target
      case WriteArray(a) => Found(if name in a.values then a.values[name] else VNull)
      case WriteObject(chain, fields) =>
        if |chain| > 0 && Declares(chain[0], s) then Found(CurrentField(fields, s)) else NotDeclared
  }

  /** A property of the source with the value the factory sees for it. */
  datatype Candidate = Candidate(name: Name, value: Value)

  /** An array source: its keys in order, with their values. */
  function ArrayCandidates(a: PhpArray): (cs: seq<Candidate>)
    requires a.Valid()
    ensures |cs| == |a.keys|
    ensures forall i :: 0 <= i < |cs| ==> cs[i] == Candidate(a.keys[i], a.values[a.keys[i]])
  {
    seq(|a.keys|, i requires 0 <= i < |a.keys| => Candidate(a.keys[i], a.values[a.keys[i]]))
  }

  /** The properties one class reports, with their declared defaults. */
  function LevelCandidates(level: Level): (cs: seq<Candidate>)
    ensures |cs| == |level.props|
  {
    seq(|level.props|, i requires 0 <= i < |level.props| =>
      Candidate(NStr(level.props[i].name), level.props[i].default))
  }

  /** An object source: the properties of its class, then of each parent. */
  function ChainCandidates(chain: Chain): (cs: seq<Candidate>)
    ensures |cs| == PropCount(chain)
  {
    if chain == [] then []
    else ChainCandidates(chain[..|chain| - 1]) + LevelCandidates(chain[|chain| - 1])
  }

  /** The number of properties the classes of a chain report together. */
  function PropCount(chain: Chain): nat {
    if chain == [] then 0 else PropCount(chain[..|chain| - 1]) + |chain[|chain| - 1].props|
  }

  /** The candidates are laid out class by class, own class first, each
      class's properties in their reported order: property `i` of class `k`
      sits right after the properties of the classes before `k`. A name
      declared on two classes is therefore a candidate twice. */
  lemma {:induction false} ChainCandidatesInOrder(chain: Chain, k: nat, i: nat)
    requires k < |chain| && i < |chain[k].props|
    ensures PropCount(chain[..k]) + i < |ChainCandidates(chain)|
    ensures ChainCandidates(chain)[PropCount(chain[..k]) + i] ==
      Candidate(NStr(chain[k].props[i].name), chain[k].props[i].default)
  {
    var n := |chain| - 1;
    if k == n {
      assert chain[..k] == chain[..n];
    } else {
      assert chain[..n][..k] == chain[..k];
      assert chain[..n][k] == chain[k];
      ChainCandidatesInOrder(chain[..n], k, i);
    }
  }

  /** Every declared property of every class in the chain is a candidate,
      with its declared default, and nothing else is. */
  lemma ChainCandidatesAreDeclaredDefaults(chain: Chain, c: Candidate)
    ensures c in ChainCandidates(chain) <==>
      exists k, p :: 0 <= k < |chain| && p in chain[k].props && c == Candidate(NStr(p.name), p.default)
  {
    if c in ChainCandidates(chain) {
      CandidateIsDeclared(chain, c);
    }
    if exists k, p :: 0 <= k < |chain| && p in chain[k].props && c == Candidate(NStr(p.name), p.default) {
      var k, p :| 0 <= k < |chain| && p in chain[k].props && c == Candidate(NStr(p.name), p.default);
      var i :| 0 <= i < |chain[k].props| && chain[k].props[i] == p;
      ChainCandidatesInOrder(chain, k, i);
    }
  }

  lemma {:induction false} CandidateIsDeclared(chain: Chain, c: Candidate)
    requires c in ChainCandidates(chain)
    ensures exists k, p :: 0 <= k < |chain| && p in chain[k].props && c == Candidate(NStr(p.name), p.default)
  {
    var n := |chain| - 1;
    if c in ChainCandidates(chain[..n]) {
      CandidateIsDeclared(chain[..n], c);
      var k, p :| 0 <= k < n && p in chain[..n][k].props && c == Candidate(NStr(p.name), p.default);
      assert chain[..n][k] == chain[k];
    } else {
      var last := LevelCandidates(chain[n]);
      var i :| 0 <= i < |last| && last[i] == c;
      assert chain[n].props[i] in chain[n].props;
    }
  }

  /** The candidates of the source, as `getCanonicalConfig` walks them. */
  function SourceCandidates(source: Data): seq<Candidate>
    requires source.ArrayData? ==> source.arr.Valid()
  {
    match source
    case ArrayData(a) => ArrayCandidates(a)
    case ObjectData(o) => ChainCandidates(o.chain)
  }

  /** The rows for the candidates in order: a ReflectionException drops the
      candidate, a TypeError aborts. */
  function CanonicalRows(cands: seq<Candidate>, target: WriteSide, reg: Registry): (r: Result<seq<CanonicalRow>>)
    ensures r.Err? ==> r.error == TypeError
    ensures r.Ok? ==> |r.value| <= |cands|
  {
    if cands == [] then Ok([])
    else
      match CanonicalRows(cands[..|cands| - 1], target, reg)
      case Err(e) => Err(e)
      case Ok(rows) => NextRows(rows, cands[|cands| - 1], target, reg)
  }

  function NextRows(rows: seq<CanonicalRow>, c: Candidate, target: WriteSide, reg: Registry): (r: Result<seq<CanonicalRow>>)
    ensures r.Err? ==> r.error == TypeError
    ensures r.Ok? ==> |r.value| <= |rows| + 1
  {
    match GetPropertyValue(target, c.name)
    case BadName => Err(TypeError)
    case NotDeclared => Ok(rows)
    case Found(tv) =>
      match CanonicalConfigRow(c.name.s, c.value, tv, reg)
      case Err(e) => Err(e)
      case Ok(r) => Ok(rows + [r])
  }

  /** The value the factory sees for a name on an array target. */
  function ArrayValueOrNull(a: PhpArray, name: Name): Value {
    if name in a.values then a.values[name] else VNull
  }

  /** Neither value is an object facing an array. */
  predicate NoClash(sourceValue: Value, targetValue: Value) {
    !((sourceValue.VObject? && targetValue.VArray?) || (sourceValue.VArray? && targetValue.VObject?))
  }

  /** With an array target every string-named candidate yields exactly one
      row, in candidate order, even when the target lacks the key. */
  lemma {:induction false} ArrayTargetKeepsEveryCandidate(cands: seq<Candidate>, a: PhpArray, reg: Registry)
    requires forall i :: 0 <= i < |cands| ==>
      cands[i].name.NStr? && NoClash(cands[i].value, ArrayValueOrNull(a, cands[i].name))
    ensures CanonicalRows(cands, WriteArray(a), reg).Ok?
    ensures |CanonicalRows(cands, WriteArray(a), reg).value| == |cands|
    ensures forall i :: 0 <= i < |cands| ==>
      NStr(CanonicalRows(cands, WriteArray(a), reg).value[i].name) == cands[i].name
  {
    if cands != [] {
      var n := |cands| - 1;
      ArrayTargetKeepsEveryCandidate(cands[..n], a, reg);
      assert forall i :: 0 <= i < n ==> cands[..n][i] == cands[i];
    }
  }

  /** An int key in the source aborts the derivation with a TypeError as
      soon as it is reached. */
  lemma IntKeyIsTypeError(cands: seq<Candidate>, target: WriteSide, reg: Registry)
    requires cands != [] && cands[|cands| - 1].name.NInt?
    ensures CanonicalRows(cands, target, reg) == Err(TypeError)
  {
  }

  /** With an object target, the rows are for properties its class
      declares, and every declared candidate gets a row (when nothing raises
      a TypeError). */
  lemma {:induction false} ObjectTargetDropsUndeclared(cands: seq<Candidate>, chain: Chain, fields: map<string, Value>, reg: Registry)
    requires |chain| > 0
    ensures var r := CanonicalRows(cands, WriteObject(chain, fields), reg);
      && (r.Ok? ==> |r.value| <= |cands|)
      && (r.Ok? ==> forall j :: 0 <= j < |r.value| ==> Declares(chain[0], r.value[j].name))
      && (r.Ok? ==> forall i :: 0 <= i < |cands| && cands[i].name.NStr? && Declares(chain[0], cands[i].name.s) ==>
            exists j :: 0 <= j < |r.value| && r.value[j].name == cands[i].name.s)
  {
    if cands != [] {
      var n := |cands| - 1;
      ObjectTargetDropsUndeclared(cands[..n], chain, fields, reg);
      var r := CanonicalRows(cands, WriteObject(chain, fields), reg);
      var before := CanonicalRows(cands[..n], WriteObject(chain, fields), reg);
      if r.Ok? {
        assert before.Ok?;
        forall i | 0 <= i < |cands| && cands[i].name.NStr? && Declares(chain[0], cands[i].name.s)
          ensures exists j :: 0 <= j < |r.value| && r.value[j].name == cands[i].name.s
        {
          if i < n {
            assert cands[..n][i] == cands[i];
            var j :| 0 <= j < |before.value| && before.value[j].name == cands[i].name.s;
            assert r.value[j] == before.value[j];
          } else {
            assert r.value[|r.value| - 1].name == cands[i].name.s;
          }
        }
      }
    }
  }

  // ---------------------------------------------------------------------
  // From canonical rows to a configuration.

  /** The nested forward closure: runs the nested `transform` on
      (source value, target value) and returns the target value it mutated. */
  function NestedForward(sourceValue: Value, targetValue: Value): Value {
    targetValue
  }

  /** The nested reverse closure as written: it runs the nested
      `reverseTransform` into its second argument but returns its first. */
  function NestedReverseAsWritten(targetValue: Value, sourceValue: Value): Value {
    targetValue
  }

  /** The nested reverse closure as intended: it returns the source value
      it mutated, symmetric to `NestedForward`. */
  function NestedReverse(targetValue: Value, sourceValue: Value): Value {
    sourceValue
  }

  /** The tuple `[name, null, fwd, rev]` of a wired nested row, with the
      closures as the factory builds them. */
  function WiredEntry(name: string): Entry {
    TupleEntry(NStr(name), None, Some(Custom(NestedForward)), Some(Custom(NestedReverseAsWritten)))
  }

  /** The same tuple with the reverse closure returning the object it updated. */
  function WiredEntryCorrected(name: string): Entry {
    TupleEntry(NStr(name), None, Some(Custom(NestedForward)), Some(Custom(NestedReverse)))
  }

  /** Run forward between two arrays, a wired row writes back the target's
      own nested value, the one the nested transform updated; the source
      object is not copied into the target. */
  lemma NestedForwardKeepsTargetObject(name: string, src: PhpArray, tgt: PhpArray, strict: bool)
    requires NStr(name) in src.values && IsObjectOrArray(src.values[NStr(name)])
    requires NStr(name) in tgt.values && tgt.values[NStr(name)].VObject?
    ensures var out := Step(EntryRow(WiredEntry(name)), ReadArray(src), WriteArray(tgt), strict, false);
      out == Outcome(WriteArray(tgt.Put(NStr(name), ArrayValueOrNull(tgt, NStr(name)))), None)
  {
  }

  /** As written, a wired row run in reverse between two arrays puts the
      target's nested value into the source, in place of the source object
      the nested reverse transform updated. */
  lemma NestedReverseAsWrittenAliasesTarget(name: string, tgt: PhpArray, src: PhpArray, strict: bool)
    requires NStr(name) in tgt.values && IsObjectOrArray(tgt.values[NStr(name)])
    requires NStr(name) in src.values && IsObjectOrArray(src.values[NStr(name)])
    ensures var out := Step(EntryRow(WiredEntry(name)), ReadArray(tgt), WriteArray(src), strict, true);
      out == Outcome(WriteArray(src.Put(NStr(name), tgt.values[NStr(name)])), None)
  {
  }

  /** A concrete case of the above: after `reverseTransform`, `src['p']` is
      the object read from `tgt['p']`, not the source object `A#1`. */
  lemma NestedReverseAsWrittenLosesSourceObject()
    ensures var tgt := OrderedMap([NStr("p")], map[NStr("p") := VObject("B", 2)]);
      var src := OrderedMap([NStr("p")], map[NStr("p") := VObject("A", 1)]);
      var out := Step(EntryRow(WiredEntry("p")), ReadArray(tgt), WriteArray(src), true, true);
      && out.error.None?
      && out.side.arr.values[NStr("p")] == VObject("B", 2)
      && out.side.arr.values[NStr("p")] != src.values[NStr("p")]
  {
  }

  /** With the corrected closure, the same reverse step writes back the
      source's own nested object. */
  lemma NestedReverseKeepsSourceObject(name: string, tgt: PhpArray, src: PhpArray, strict: bool)
    requires NStr(name) in tgt.values && IsObjectOrArray(tgt.values[NStr(name)])
    requires NStr(name) in src.values && src.values[NStr(name)].VObject?
    ensures var out := Step(EntryRow(WiredEntryCorrected(name)), ReadArray(tgt), WriteArray(src), strict, true);
      out == Outcome(WriteArray(src.Put(NStr(name), ArrayValueOrNull(src, NStr(name)))), None)
  {
  }

  /** An unwired nested row passes null transforms to `add`, which is typed
      `bool|callable`. */
  predicate Unwired(r: CanonicalRow) {
    r.Nested? && r.wiring.None?
  }

  /** The tuple a canonical row is, as `new Configuration` reads it. */
  function ToEntry(r: CanonicalRow): (e: Entry)
    requires !Unwired(r)
    ensures EntryRow(e).SourcePropertyName() == NStr(r.name)
    ensures EntryRow(e).TargetPropertyName() == NStr(r.name)
    ensures r.Plain? ==> EntryRow(e).transform == Identity && EntryRow(e).reverseTransform == Skip
    ensures r.Nested? ==> EntryRow(e).transform == Custom(NestedForward)
    ensures r.Nested? ==> EntryRow(e).reverseTransform == Custom(NestedReverseAsWritten)
  {
    match r
    case Plain(name) => TupleEntry(NStr(name), None, None, None)
    case Nested(name, _) => WiredEntry(name)
  }

  function ToEntries(rows: seq<CanonicalRow>): (es: seq<Entry>)
    requires forall i :: 0 <= i < |rows| ==> !Unwired(rows[i])
    ensures |es| == |rows| && forall i :: 0 <= i < |rows| ==> es[i] == ToEntry(rows[i])
  {
    seq(|rows|, i requires 0 <= i < |rows| => ToEntry(rows[i]))
  }

  /** In the built configuration, a name that several canonical rows share
      holds the row built from the last of them. */
  lemma BuiltConfigLastWins(rows: seq<CanonicalRow>, i: nat)
    requires forall j :: 0 <= j < |rows| ==> !Unwired(rows[j])
    requires i < |rows|
    requires forall j :: i < j < |rows| ==> rows[j].name != rows[i].name
    ensures Key(NStr(rows[i].name)) in FromEntries(ToEntries(rows)).values
    ensures FromEntries(ToEntries(rows)).values[Key(NStr(rows[i].name))] == EntryRow(ToEntry(rows[i]))
    ensures |FromEntries(ToEntries(rows)).keys| <= |rows|
  {
    var es := ToEntries(rows);
    forall j | i < j < |rows|
      ensures EntryKey(es[j]) != EntryKey(es[i])
    {
      SameKey(NStr(rows[j].name), NStr(rows[i].name));
    }
    FromEntriesLastWins(es, i);
    FromEntriesSize(es);
  }

  // ---------------------------------------------------------------------
  // The factory.

  class ConfigurationFactory {
    var configurations: Registry

    constructor ()
      ensures configurations == map[]
    {
      configurations := map[];
    }

    /** Stores the configuration for the class pair (null read as
        `'!object'`), replacing any earlier one; returns this factory. */
    method RegisterConfiguration(sourceClass: Option<string>, targetClass: Option<string>, configuration: Configuration)
      returns (self: ConfigurationFactory)
      modifies this
      ensures self == this
      ensures Lookup(configurations, ClassKey(sourceClass), ClassKey(targetClass)) == Some(configuration)
      ensures forall s, t :: (s, t) != (ClassKey(sourceClass), ClassKey(targetClass)) ==>
        Lookup(configurations, s, t) == Lookup(old(configurations), s, t)
    {
      var s, t := ClassKey(sourceClass), ClassKey(targetClass);
      var inner: map<string, Configuration> := if s in configurations then configurations[s] else map[];
      configurations := configurations[s := inner[t := configuration]];
      self := this;
    }

    /** Removes the configuration of the class pair, if any, and nothing
        else; returns this factory. */
    method UnregisterConfiguration(sourceClass: Option<string>, targetClass: Option<string>)
      returns (self: ConfigurationFactory)
      modifies this
      ensures self == this
      ensures Lookup(configurations, ClassKey(sourceClass), ClassKey(targetClass)) == None
      ensures forall s, t :: (s, t) != (ClassKey(sourceClass), ClassKey(targetClass)) ==>
        Lookup(configurations, s, t) == Lookup(old(configurations), s, t)
      ensures Lookup(old(configurations), ClassKey(sourceClass), ClassKey(targetClass)).None? ==>
        configurations == old(configurations)
    {
      var s, t := ClassKey(sourceClass), ClassKey(targetClass);
      if s in configurations {
        assert t !in configurations[s] ==> configurations[s] - {t} == configurations[s];
        configurations := configurations[s := configurations[s] - {t}];
      }
      self := this;
    }

    /** `getCanonicalConfig`: one candidate per source key (array) or per
        property of the class and then of each parent (object), each turned
        into a canonical row against the target. */
    method GetCanonicalConfig(source: Data, target: Data) returns (r: Result<seq<CanonicalRow>>)
      requires source.ArrayData? ==> source.arr.Valid()
      ensures r == CanonicalRows(SourceCandidates(source), WriteSideOf(target), configurations)
    {
      var view := WriteSideOf(target);
      match source {
        case ArrayData(a) =>
          r := ScanKeys(a, view);
        case ObjectData(o) =>
          r := ScanChain(o.chain, view);
      }
    }

    /** The loop of `getCanonicalConfig` over the keys of an array source. */
    method ScanKeys(a: PhpArray, view: WriteSide) returns (r: Result<seq<CanonicalRow>>)
      requires a.Valid()
      ensures r == CanonicalRows(ArrayCandidates(a), view, configurations)
    {
      var properties: seq<CanonicalRow> := [];
      var cands := ArrayCandidates(a);
      for i := 0 to |a.keys|
        invariant CanonicalRows(cands[..i], view, configurations) == Ok(properties)
      {
        var prefix := cands[..i];
        assert cands[..i + 1] == prefix + [cands[i]];
        CanonicalRowsSnoc(prefix, cands[i], view, configurations);
        var next := NextRow(properties, cands[i], view);
        if next.Err? {
          CanonicalRowsStopAtError(cands, i + 1, view, configurations);
          return next;
        }
        properties := next.value;
      }
      assert cands[..|cands|] == cands;
      r := Ok(properties);
    }

    /** The body of both loops for one candidate: probe the target, drop
        the candidate on a ReflectionException, else add its row. */
    method NextRow(properties: seq<CanonicalRow>, c: Candidate, view: WriteSide)
      returns (r: Result<seq<CanonicalRow>>)
      ensures GetPropertyValue(view, c.name).BadName? ==> r == Err(TypeError)
      ensures GetPropertyValue(view, c.name).NotDeclared? ==> r == Ok(properties)
      ensures GetPropertyValue(view, c.name).Found? && r.Ok? ==>
        |r.value| == |properties| + 1 && r.value[..|properties|] == properties &&
        r.value[|properties|].name == c.name.s
      ensures r.Err? ==> r.error == TypeError
      ensures r == NextRows(properties, c, view, configurations)
    {
      var probe := GetPropertyValue(view, c.name);
      match probe {
        case BadName =>
          return Err(TypeError);
        case NotDeclared =>
          return Ok(properties);
        case Found(tv) =>
          var row := CanonicalConfigRow(c.name.s, c.value, tv, configurations);
          if row.Err? {
            return Err(row.error);
          }
          return Ok(properties + [row.value]);
      }
    }

    /** The `do … while` of `getCanonicalConfig` over the class of an object
        source and then each parent class. */
    method ScanChain(chain: Chain, view: WriteSide) returns (r: Result<seq<CanonicalRow>>)
      ensures r == CanonicalRows(ChainCandidates(chain), view, configurations)
    {
      var properties: seq<CanonicalRow> := [];
      var level := 0;
      while level < |chain|
        invariant 0 <= level <= |chain|
        invariant CanonicalRows(ChainCandidates(chain[..level]), view, configurations) == Ok(properties)
      {
        var done := ChainCandidates(chain[..level]);
        ChainCandidatesPrefix(chain, level);
        var next := ScanLevel(chain[level], done, properties, view);
        if next.Err? {
          var all := ChainCandidates(chain);
          CanonicalRowsStopAtError(all, |done + LevelCandidates(chain[level])|, view, configurations);
          assert all[..|all|] == all;
          return next;
        }
        properties := next.value;
        level := level + 1;
      }
      assert chain[..|chain|] == chain;
      r := Ok(properties);
    }

    /** The inner loop of `getCanonicalConfig` over the properties one class
        of the source reports, continuing from the rows made so far. */
    method ScanLevel(level: Level, done: seq<Candidate>, properties: seq<CanonicalRow>, view: WriteSide)
      returns (r: Result<seq<CanonicalRow>>)
      requires CanonicalRows(done, view, configurations) == Ok(properties)
      ensures r == CanonicalRows(done + LevelCandidates(level), view, configurations)
    {
      var here := LevelCandidates(level);
      var rows := properties;
      assert done + here[..0] == done;
      for j := 0 to |level.props|
        invariant CanonicalRows(done + here[..j], view, configurations) == Ok(rows)
      {
        var prefix := done + here[..j];
        assert done + here[..j + 1] == prefix + [here[j]];
        CanonicalRowsSnoc(prefix, here[j], view, configurations);
        var next := NextRow(rows, here[j], view);
        if next.Err? {
          assert (prefix + [here[j]]) + here[j + 1..] == done + here;
          CanonicalRowsAfterError(prefix + [here[j]], here[j + 1..], view, configurations);
          return next;
        }
        rows := next.value;
      }
      assert here[..|here|] == here;
      r := Ok(rows);
    }

    /** `buildCanonicalConfig`: `new Configuration` of the canonical rows.
        A null transform in an unwired row is rejected by `add` with a
        TypeError. */
    method BuildCanonicalConfig(source: Data, target: Data) returns (r: Result<Configuration>)
      requires source.ArrayData? ==> source.arr.Valid()
      ensures var rows := CanonicalRows(SourceCandidates(source), WriteSideOf(target), configurations);
        && (rows.Err? ==> r == Err(rows.error))
        && (rows.Ok? && (exists i :: 0 <= i < |rows.value| && Unwired(rows.value[i])) ==> r == Err(TypeError))
        && (rows.Ok? && (forall i :: 0 <= i < |rows.value| ==> !Unwired(rows.value[i])) ==>
              r.Ok? && fresh(r.value) && r.value.Valid() && r.value.config == FromEntries(ToEntries(rows.value)))
    {
      var rows := GetCanonicalConfig(source, target);
      if rows.Err? {
        return Err(rows.error);
      }
      var i := 0;
      while i < |rows.value|
        invariant 0 <= i <= |rows.value|
        invariant forall j :: 0 <= j < i ==> !Unwired(rows.value[j])
      {
        if Unwired(rows.value[i]) {
          return Err(TypeError);
        }
        i := i + 1;
      }
      var configuration := new Configuration(ToEntries(rows.value));
      r := Ok(configuration);
    }
  }

  lemma ChainCandidatesPrefix(chain: Chain, level: nat)
    requires level < |chain|
    ensures ChainCandidates(chain[..level + 1]) == ChainCandidates(chain[..level]) + LevelCandidates(chain[level])
    ensures |ChainCandidates(chain[..level + 1])| <= |ChainCandidates(chain)|
    ensures ChainCandidates(chain)[..|ChainCandidates(chain[..level + 1])|] == ChainCandidates(chain[..level + 1])
  {
    assert chain[..level + 1][..level] == chain[..level];
    ChainCandidatesGrow(chain, level + 1);
  }

  lemma {:induction false} ChainCandidatesGrow(chain: Chain, k: nat)
    requires k <= |chain|
    ensures |ChainCandidates(chain[..k])| <= |ChainCandidates(chain)|
    ensures ChainCandidates(chain)[..|ChainCandidates(chain[..k])|] == ChainCandidates(chain[..k])
  {
    if k == |chain| {
      assert chain[..k] == chain;
    } else {
      var n := |chain| - 1;
      assert chain[..n][..k] == chain[..k];
      ChainCandidatesGrow(chain[..n], k);
    }
  }

  lemma CanonicalRowsSnoc(cands: seq<Candidate>, c: Candidate, target: WriteSide, reg: Registry)
    ensures var before := CanonicalRows(cands, target, reg);
      CanonicalRows(cands + [c], target, reg) ==
        if before.Err? then before else NextRows(before.value, c, target, reg)
  {
    assert (cands + [c])[..|cands|] == cands;
  }

  lemma {:induction false} CanonicalRowsAfterError(a: seq<Candidate>, b: seq<Candidate>, target: WriteSide, reg: Registry)
    requires CanonicalRows(a, target, reg).Err?
    ensures CanonicalRows(a + b, target, reg) == CanonicalRows(a, target, reg)
  {
    if b == [] {
      assert a + b == a;
    } else {
      var n := |b| - 1;
      CanonicalRowsAfterError(a, b[..n], target, reg);
      assert (a + b)[..|a + b| - 1] == a + b[..n];
    }
  }

  /** Once a prefix of the candidates raises, the derivation raises the same. */
  lemma {:induction false} CanonicalRowsStopAtError(cands: seq<Candidate>, k: nat, target: WriteSide, reg: Registry)
    requires k <= |cands|
    requires CanonicalRows(cands[..k], target, reg).Err?
    ensures CanonicalRows(cands, target, reg) == CanonicalRows(cands[..k], target, reg)
  {
    if k < |cands| {
      var n := |cands| - 1;
      assert cands[..n][..k] == cands[..k];
      CanonicalRowsStopAtError(cands[..n], k, target, reg);
    } else {
      assert cands[..k] == cands;
    }
  }
}

=== FILE: configuration_row.dfy ===
/**
 * ConfigurationRow: the immutable description of how one property maps
 * between the two sides of a transformation.
 */
module ConfigurationRows {
  import opened PhpValues

  /** What a row does in one direction: `false` (skip the row), `true` (copy
      the value unchanged) or a callable applied to (read value, current
      value on the written side). */
  datatype Transform = Skip | Identity | Custom(f: (Value, Value) -> Value)

  /** The four constructor arguments, stored as given. */
  datatype Row = Row(
    sourceProperty: Name,
    targetProperty: Option<Name>,
    transform: Transform,
    reverseTransform: Transform)
  {
    function SourcePropertyName(): Name {
      sourceProperty
    }

    /** The target name falls back to the source name when none was given. */
    function TargetPropertyName(): Name {
      match targetProperty
      case Some(t) => t
      case None => sourceProperty
    }
  }

  /** `new ConfigurationRow(...)` with the constructor's defaults: no target
      name, forward transform `true`, reverse transform `false`. */
  function NewRow(
    sourcePropertyName: Name,
    targetPropertyName: Option<Name> := None,
    transform: Transform := Identity,
    reverseTransform: Transform := Skip): (r: Row)
    ensures r.SourcePropertyName() == sourcePropertyName
    ensures targetPropertyName.Some? ==> r.TargetPropertyName() == targetPropertyName.value
    ensures targetPropertyName.None? ==> r.TargetPropertyName() == sourcePropertyName
    ensures r.transform == transform && r.reverseTransform == reverseTransform
  {
    Row(sourcePropertyName, targetPropertyName, transform, reverseTransform)
  }

  /** A row built from the source name alone copies forward under the same
      name and is skipped in reverse. */
  lemma NewRowDefaults(name: Name)
    ensures NewRow(name).SourcePropertyName() == name
    ensures NewRow(name).TargetPropertyName() == name
    ensures NewRow(name).transform == Identity
    ensures NewRow(name).reverseTransform == Skip
  {
  }
}

=== FILE: ordered_maps.dfy ===
/**
 * PHP's array as used by the mapper: a map whose keys remember the order in
 * which they were first inserted. Assigning to an existing key replaces its
 * value in place; assigning to a new key appends it.
 */
module OrderedMaps {

  datatype OrderedMap<K(==, !new), V> = OrderedMap(keys: seq<K>, values: map<K, V>) {

    /** Every key is listed exactly once and the listed keys are the stored ones. */
    ghost predicate Valid() {
      (forall i, j :: 0 <= i < j < |keys| ==> keys[i] != keys[j]) &&
      (forall k :: k in values <==> k in keys)
    }

    /** `$array[$k] = $v`. */
    function Put(k: K, v: V): OrderedMap<K, V> {
      if k in values then OrderedMap(keys, values[k := v])
      else OrderedMap(keys + [k], values[k := v])
    }

    /** What `foreach` yields: the values in key order. */
    function Values(): (vs: seq<V>)
      requires Valid()
      ensures |vs| == |keys|
      ensures forall i :: 0 <= i < |keys| ==> vs[i] == values[keys[i]]
    {
      ValuesOf(keys, values)
    }
  }

  function Empty<K(==, !new), V>(): (m: OrderedMap<K, V>)
    ensures m.Valid() && m.keys == [] && m.values == map[]
  {
    OrderedMap([], map[])
  }

  function ValuesOf<K(==, !new), V>(keys: seq<K>, values: map<K, V>): (vs: seq<V>)
    requires forall k :: k in keys ==> k in values
    ensures |vs| == |keys|
    ensures forall i :: 0 <= i < |keys| ==> vs[i] == values[keys[i]]
  {
    if keys == [] then []
    else ValuesOf(keys[..|keys| - 1], values) + [values[keys[|keys| - 1]]]
  }

  /** Assignment stores `v` under `k`, keeps every other entry, keeps the
      order of the existing keys, and appends `k` only when it is new. */
  lemma PutSpec<K(!new), V>(m: OrderedMap<K, V>, k: K, v: V)
    requires m.Valid()
    ensures m.Put(k, v).Valid()
    ensures k in m.Put(k, v).values && m.Put(k, v).values[k] == v
    ensures forall k' :: k' != k ==> (k' in m.Put(k, v).values <==> k' in m.values)
    ensures forall k' :: k' != k && k' in m.values ==> m.Put(k, v).values[k'] == m.values[k']
    ensures k in m.values ==> m.Put(k, v).keys == m.keys
    ensures k !in m.values ==> m.Put(k, v).keys == m.keys + [k]
  {
  }

  /** Overwriting an existing key keeps its position and the number of entries. */
  lemma OverwriteKeepsPosition<K(!new), V>(m: OrderedMap<K, V>, i: nat, v: V)
    requires m.Valid() && i < |m.keys|
    ensures |m.Put(m.keys[i], v).keys| == |m.keys|
    ensures m.Put(m.keys[i], v).keys[i] == m.keys[i]
    ensures m.Put(m.keys[i], v).Values() == m.Values()[i := v]
  {
    var m' := m.Put(m.keys[i], v);
    assert m'.keys == m.keys;
    forall j | 0 <= j < |m.keys|
      ensures m'.Values()[j] == m.Values()[i := v][j]
    {
      if j != i {
        assert m.keys[j] != m.keys[i];
      }
    }
  }
}

=== FILE: php_values.dfy ===
/**
 * The PHP values the mapper moves around, the names it addresses them by, and
 * an abstract view of PHP classes as a chain of levels (the class itself,
 * then its parents), each declaring named properties with a default value.
 */
module PhpValues {

  datatype Option<+T> = None | Some(value: T)

  /** PropertyMissingException, and the TypeError PHP raises when a typed
      parameter receives a value of the wrong type under strict_types. */
  datatype Error = PropertyMissing | TypeError

  datatype Result<+T> = Ok(value: T) | Err(error: Error)

  /** An array key or property name: PHP allows `int|string`. */
  datatype Name = NInt(i: int) | NStr(s: string)

  /** A PHP value. Arrays nested in values keep their entries; an object value
      is a handle to an instance of a named class. */
  datatype Value =
    | VNull
    | VBool(b: bool)
    | VInt(n: int)
    | VString(str: string)
    | VArray(items: seq<(Name, Value)>)
    | VObject(className: string, handle: nat)

  predicate IsObjectOrArray(v: Value) {
    v.VObject? || v.VArray?
  }

  /** One declared property of a class, with its declared default value. */
  datatype Property = Property(name: string, default: Value)

  /** One class of an inheritance chain: the properties reflection reports for it. */
  datatype Level = Level(className: string, props: seq<Property>)

  /** A class followed by its parent, its grand-parent, and so on. */
  type Chain = seq<Level>

  predicate Declares(level: Level, name: string) {
    exists p :: p in level.props && p.name == name
  }

  /** The declared default of `name` on `level`. */
  function DeclaredDefault(level: Level, name: string): (v: Value)
    requires Declares(level, name)
    ensures Property(name, v) in level.props
    decreases |level.props|
  {
    var p := level.props[0];
    if p.name == name then p.default
    else
      assert exists q :: q in level.props[1..] && q.name == name by {
        var q :| q in level.props && q.name == name;
        assert q != p;
      }
      DeclaredDefault(Level(level.className, level.props[1..]), name)
  }

  /** An object: the class chain it was instantiated from and its current
      property values. */
  class Instance {
    const chain: Chain
    var fields: map<string, Value>

    constructor (chain: Chain, fields: map<string, Value>)
      requires |chain| >= 1
      ensures this.chain == chain && this.fields == fields
    {
      this.chain := chain;
      this.fields := fields;
    }
  }

  /** The current value of a property; an unset one reads as null. */
  function CurrentField(fields: map<string, Value>, name: string): Value {
    if name in fields then fields[name] else VNull
  }

  // ---------------------------------------------------------------------
  // Decimal rendering of integers, as PHP's string conversion of an int.

  function DigitChar(d: nat): (c: char)
    requires d < 10
    ensures '0' <= c <= '9'
  {
    (d + '0' as int) as char
  }

  function NatToDecimal(n: nat): (s: string)
    ensures |s| >= 1
    ensures forall i :: 0 <= i < |s| ==> '0' <= s[i] <= '9'
  {
    if n < 10 then [DigitChar(n)] else NatToDecimal(n / 10) + [DigitChar(n % 10)]
  }

  function IntToDecimal(i: int): string {
    if i < 0 then "-" + NatToDecimal(-i) else NatToDecimal(i)
  }

  /** Different naturals have different decimal renderings. */
  lemma {:induction false} NatToDecimalInjective(a: nat, b: nat)
    requires NatToDecimal(a) == NatToDecimal(b)
    ensures a == b
  {
    var sa, sb := NatToDecimal(a), NatToDecimal(b);
    if a < 10 && b < 10 {
      assert DigitChar(a) == sa[0] == sb[0] == DigitChar(b);
    } else if a >= 10 && b >= 10 {
      assert sa[..|sa| - 1] == NatToDecimal(a / 10);
      assert sb[..|sb| - 1] == NatToDecimal(b / 10);
      NatToDecimalInjective(a / 10, b / 10);
      assert DigitChar(a % 10) == sa[|sa| - 1] == sb[|sb| - 1] == DigitChar(b % 10);
    }
  }

  /** A rendering starts with a minus sign exactly when the integer is negative. */
  lemma IntToDecimalSign(a: int)
    ensures |IntToDecimal(a)| >= 1
    ensures IntToDecimal(a)[0] == '-' <==> a < 0
  {
    if a >= 0 {
      assert '0' <= NatToDecimal(a)[0] <= '9';
    }
  }

  /** Different integers have different decimal renderings. */
  lemma IntToDecimalInjective(a: int, b: int)
    requires IntToDecimal(a) == IntToDecimal(b)
    ensures a == b
  {
    var sa, sb := IntToDecimal(a), IntToDecimal(b);
    IntToDecimalSign(a);
    IntToDecimalSign(b);
    if a < 0 && b < 0 {
      assert sa[1..] == NatToDecimal(-a);
      assert sb[1..] == NatToDecimal(-b);
      NatToDecimalInjective(-a, -b);
    } else if a >= 0 && b >= 0 {
      NatToDecimalInjective(a, b);
    }
  }

  /** The string PHP makes of a name when concatenating it. */
  function NameString(n: Name): string {
    match n
    case NInt(i) => IntToDecimal(i)
    case NStr(s) => s
  }
}

=== FILE: scenarios.dfy ===
/**
 * A worked scenario: a configuration with a plain row `["a"]` and a row
 * `["b", "c", double, halve]`, run forward from `{a: 1, b: 5}` into an empty
 * array and then back into another empty array.
 */
module Scenarios {
  import opened PhpValues
  import opened OrderedMaps
  import opened ConfigurationRows
  import opened Configurations
  import opened Transformers

  function Double(v: Value, current: Value): Value {
    if v.VInt? then VInt(v.n * 2) else v
  }

  function Halve(v: Value, current: Value): Value {
    if v.VInt? && v.n % 2 == 0 then VInt(v.n / 2) else v
  }

  function ScenarioEntries(): seq<Entry> {
    [ TupleEntry(NStr("a"), None, None, None),
      TupleEntry(NStr("b"), Some(NStr("c")), Some(Custom(Double)), Some(Custom(Halve))) ]
  }

  function ScenarioRows(): seq<Row> {
    [ Row(NStr("a"), None, Identity, Skip),
      Row(NStr("b"), Some(NStr("c")), Custom(Double), Custom(Halve)) ]
  }

  /** The two tuples become two rows under keys `_a` and `_b`, in that
      order, with the tuple defaults filled in for `["a"]`. */
  lemma ScenarioConfiguration()
    ensures FromEntries(ScenarioEntries()).keys == ["_a", "_b"]
    ensures FromEntries(ScenarioEntries()).Values() == ScenarioRows()
  {
    var es := ScenarioEntries();
    assert EntryKey(es[0]) == Key(NStr("a")) == "_a";
    assert EntryKey(es[1]) == Key(NStr("b")) == "_b";
    assert es[..1][..0] == [];
    assert FromEntries(es[..1]) == Empty<string, Row>().Put("_a", EntryRow(es[0]));
    assert es[..2][..1] == es[..1] && es[..2] == es;
  }

  lemma ScenarioForward()
    ensures Run(ScenarioRows(), ReadArray(ScenarioSource()), WriteArray(Empty()), true, false) ==
      Outcome(WriteArray(ScenarioTarget()), None)
  {
    var rows := ScenarioRows();
    var read := ReadArray(ScenarioSource());
    var empty: PhpArray := Empty();
    assert rows[..1][..0] == [] && rows[..2] == rows;
    var s1 := OrderedMap([NStr("a")], map[NStr("a") := VInt(1)]);
    assert empty.Put(NStr("a"), VInt(1)) == s1;
    assert Step(rows[0], read, WriteArray(empty), true, false) == Outcome(WriteArray(s1), None);
    assert Run(rows[..1], read, WriteArray(empty), true, false) == Outcome(WriteArray(s1), None);
    assert Double(VInt(5), VNull) == VInt(10);
    assert s1.Put(NStr("c"), VInt(10)) == ScenarioTarget();
    assert Step(rows[1], read, WriteArray(s1), true, false) == Outcome(WriteArray(ScenarioTarget()), None);
  }

  lemma ScenarioBackward()
    ensures Run(ScenarioRows(), ReadArray(ScenarioTarget()), WriteArray(Empty()), true, true) ==
      Outcome(WriteArray(OrderedMap([NStr("b")], map[NStr("b") := VInt(5)])), None)
  {
    var rows := ScenarioRows();
    var read := ReadArray(ScenarioTarget());
    var empty: PhpArray := Empty();
    assert rows[..1][..0] == [] && rows[..2] == rows;
    assert Step(rows[0], read, WriteArray(empty), true, true) == Outcome(WriteArray(empty), None);
    assert Run(rows[..1], read, WriteArray(empty), true, true) == Outcome(WriteArray(empty), None);
    assert Halve(VInt(10), VNull) == VInt(5);
    assert empty.Put(NStr("b"), VInt(5)) == OrderedMap([NStr("b")], map[NStr("b") := VInt(5)]);
  }

  function ScenarioSource(): PhpArray {
    OrderedMap([NStr("a"), NStr("b")], map[NStr("a") := VInt(1), NStr("b") := VInt(5)])
  }

  function ScenarioTarget(): PhpArray {
    OrderedMap([NStr("a"), NStr("c")], map[NStr("a") := VInt(1), NStr("c") := VInt(10)])
  }

  /** Forward gives `{a: 1, c: 10}`. In reverse the row `["a"]` is skipped,
      because its reverse transform defaults to `false`, so only `b` comes
      back: `{b: 5}`. */
  lemma DoubleHalveScenario()
    ensures var rows := FromEntries(ScenarioEntries()).Values();
      var fwd := Run(rows, ReadArray(ScenarioSource()), WriteArray(Empty()), true, false);
      && fwd == Outcome(WriteArray(ScenarioTarget()), None)
      && Run(rows, ReadArray(fwd.side.arr), WriteArray(Empty()), true, true) ==
           Outcome(WriteArray(OrderedMap([NStr("b")], map[NStr("b") := VInt(5)])), None)
  {
    ScenarioConfiguration();
    ScenarioForward();
    ScenarioBackward();
  }
}

=== FILE: transformer.dfy ===
/**
 * Transformer: walks the configuration rows in order and copies (or
 * transforms) each property from the read side into the write side, which it
 * updates in place. Either side is a PHP array or an object; the engine reads
 * objects through their class chain and writes them on the class that
 * declares the property.
 */
module Transformers {
  import opened PhpValues
  import opened OrderedMaps
  import opened ConfigurationRows
  import opened Configurations

  type PhpArray = OrderedMap<Name, Value>

  // ---------------------------------------------------------------------
  // Property access through the class chain (getValue / setValue).

  /** The first level of the chain, counting from the object's own class,
      that declares `name`. */
  function FirstDeclaring(chain: Chain, name: string): (r: Option<nat>)
    ensures r.Some? ==>
      r.value < |chain| && Declares(chain[r.value], name) &&
      forall j :: 0 <= j < r.value ==> !Declares(chain[j], name)
    ensures r.None? ==> forall j :: 0 <= j < |chain| ==> !Declares(chain[j], name)
  {
    if chain == [] then None
    else if Declares(chain[0], name) then Some(0)
    else
      match FirstDeclaring(chain[1..], name)
      case None => None
      case Some(k) => Some(k + 1)
  }

  /** What `getValue` returns: the declared default of the property on the
      first class of the chain declaring it (not the object's current value);
      PropertyMissing when no class declares it; TypeError for an int name,
      since the parameter is typed `string`. */
  function LookupDefault(chain: Chain, name: Name): (r: Result<Value>)
    ensures name.NInt? ==> r == Err(TypeError)
    ensures name.NStr? ==> r != Err(TypeError)
    ensures name.NStr? ==>
      (r == Err(PropertyMissing) <==> forall j :: 0 <= j < |chain| ==> !Declares(chain[j], name.s))
    ensures name.NStr? && r.Ok? ==>
      exists k :: 0 <= k < |chain| && Declares(chain[k], name.s) &&
        (forall j :: 0 <= j < k ==> !Declares(chain[j], name.s)) &&
        r.value == DeclaredDefault(chain[k], name.s)
  {
    match name
    case NInt(_) => Err(TypeError)
    case NStr(s) =>
      match FirstDeclaring(chain, s)
      case None => Err(PropertyMissing)
      case Some(k) => Ok(DeclaredDefault(chain[k], s))
  }

  /** `getValue`: climbs from the class to its parents until one declares
      the property. */
  method GetValue(chain: Chain, name: Name) returns (r: Result<Value>)
    ensures r == LookupDefault(chain, name)
  {
    if name.NInt? {
      return Err(TypeError);
    }
    var level := 0;
    while level < |chain| && !Declares(chain[level], name.s)
      invariant 0 <= level <= |chain|
      invariant forall j :: 0 <= j < level ==> !Declares(chain[j], name.s)
    {
      level := level + 1;
    }
    if level == |chain| {
      return Err(PropertyMissing);
    }
    assert FirstDeclaring(chain, name.s) == Some(level);
    r := Ok(DeclaredDefault(chain[level], name.s));
  }

  /** `setValue`: climbs the chain like `GetValue` and sets the property on
      the object; nothing changes when no class declares it. */
  method SetValue(target: Instance, name: Name, value: Value) returns (error: Option<Error>)
    modifies target
    ensures name.NInt? ==> error == Some(TypeError)
    ensures name.NStr? && FirstDeclaring(target.chain, name.s).None? ==> error == Some(PropertyMissing)
    ensures name.NStr? && FirstDeclaring(target.chain, name.s).Some? ==> error == None
    ensures error.None? ==> target.fields == old(target.fields)[name.s := value]
    ensures error.Some? ==> target.fields == old(target.fields)
  {
    if name.NInt? {
      return Some(TypeError);
    }
    var level := 0;
    while level < |target.chain| && !Declares(target.chain[level], name.s)
      invariant 0 <= level <= |target.chain|
      invariant forall j :: 0 <= j < level ==> !Declares(target.chain[j], name.s)
    {
      level := level + 1;
    }
    if level == |target.chain| {
      return Some(PropertyMissing);
    }
    target.fields := target.fields[name.s := value];
    error := None;
  }

  // ---------------------------------------------------------------------
  // The per-row semantics.

  /** The side values are read from: an array, or an object of which only
      the class chain matters, since reads return declared defaults. */
  datatype ReadSide = ReadArray(arr: PhpArray) | ReadObject(chain: Chain)

  /** The side written into: an array, or an object's chain and fields. */
  datatype WriteSide =
    | WriteArray(arr: PhpArray)
    | WriteObject(chain: Chain, fields: map<string, Value>)

  /** The write side after some rows, and the exception that stopped the
      walk, if any. */
  datatype Outcome = Outcome(side: WriteSide, error: Option<Error>)

  function Active(row: Row, isReverse: bool): Transform {
    if isReverse then row.reverseTransform else row.transform
  }

  function ReadName(row: Row, isReverse: bool): Name {
    if isReverse then row.TargetPropertyName() else row.SourcePropertyName()
  }

  function WriteName(row: Row, isReverse: bool): Name {
    if isReverse then row.SourcePropertyName() else row.TargetPropertyName()
  }

  /** Reading the value to transfer: an absent array key is PropertyMissing. */
  function ReadValue(read: ReadSide, name: Name): Result<Value> {
    match read
    case ReadArray(a) => if name in a.values then Ok(a.values[name]) else Err(PropertyMissing)
    case ReadObject(chain) => LookupDefault(chain, name)
  }

  /** The current value handed to a callable: an absent array key is null;
      an object side goes through `getValue`, so it is the declared default. */
  function CurrentValue(write: WriteSide, name: Name): Result<Value> {
    match write
    case WriteArray(a) => Ok(if name in a.values then a.values[name] else VNull)
    case WriteObject(chain, _) => LookupDefault(chain, name)
  }

  /** Writing: an array key is set (appended if new); an object property is
      set through `setValue`. */
  function WriteValue(write: WriteSide, name: Name, v: Value): Result<WriteSide> {
    match write
    case WriteArray(a) => Ok(WriteArray(a.Put(name, v)))
    case WriteObject(chain, fields) =>
      match name
      case NInt(_) => Err(TypeError)
      case NStr(s) =>
        if FirstDeclaring(chain, s).None? then Err(PropertyMissing)
        else Ok(WriteObject(chain, fields[s := v]))
  }

  /** The effect of an active row: read, compute (the current value is
      looked up only for a callable), write. */
  function Effect(t: Transform, readName: Name, writeName: Name, read: ReadSide, write: WriteSide): (r: Result<WriteSide>)
    requires !t.Skip?
    ensures r.Ok? ==> ReadValue(read, readName).Ok?
    ensures r.Err? && r.error == TypeError ==>
      (read.ReadObject? && readName.NInt?) || (write.WriteObject? && writeName.NInt?)
  {
    match ReadValue(read, readName)
    case Err(e) => Err(e)
    case Ok(rv) =>
      if t.Identity? then WriteValue(write, writeName, rv)
      else
        match CurrentValue(write, writeName)
        case Err(e) => Err(e)
        case Ok(cur) => WriteValue(write, writeName, t.f(rv, cur))
  }

  /** One row: skipped when its active transform is `false`; otherwise its
      effect, where PropertyMissing skips the row unless `strict`, and a
      TypeError always propagates. */
  function Step(row: Row, read: ReadSide, write: WriteSide, strict: bool, isReverse: bool): (out: Outcome)
    ensures Active(row, isReverse).Skip? ==> out == Outcome(write, None)
    ensures out.error.Some? ==> out.side == write
    ensures out.error == Some(PropertyMissing) ==> strict
    ensures out.error.Some? ==> out.error == Some(PropertyMissing) || out.error == Some(TypeError)
  {
    var t := Active(row, isReverse);
    if t.Skip? then Outcome(write, None)
    else
      match Effect(t, ReadName(row, isReverse), WriteName(row, isReverse), read, write)
      case Ok(w) => Outcome(w, None)
      case Err(e) =>
        if e == PropertyMissing && !strict then Outcome(write, None)
        else Outcome(write, Some(e))
  }

  /** The rows in order; the first exception stops the walk, leaving the
      effects of the rows before it in place. */
  function Run(rows: seq<Row>, read: ReadSide, write: WriteSide, strict: bool, isReverse: bool): (out: Outcome)
    ensures out.side.WriteArray? <==> write.WriteArray?
    ensures write.WriteObject? ==> out.side.chain == write.chain
    ensures out.error.Some? ==> out.error == Some(TypeError) || (strict && out.error == Some(PropertyMissing))
    decreases |rows|
  {
    if rows == [] then Outcome(write, None)
    else
      var before := Run(rows[..|rows| - 1], read, write, strict, isReverse);
      if before.error.Some? then before
      else Step(rows[|rows| - 1], read, before.side, strict, isReverse)
  }

  lemma RunSnoc(rows: seq<Row>, i: nat, read: ReadSide, write: WriteSide, strict: bool, isReverse: bool)
    requires i < |rows|
    ensures Run(rows[..i + 1], read, write, strict, isReverse) ==
      var before := Run(rows[..i], read, write, strict, isReverse);
      if before.error.Some? then before else Step(rows[i], read, before.side, strict, isReverse)
  {
    assert rows[..i + 1][..i] == rows[..i];
  }

  /** Once a prefix of the rows has thrown, the remaining rows change nothing. */
  lemma {:induction false} RunStopsAtError(rows: seq<Row>, k: nat, read: ReadSide, write: WriteSide, strict: bool, isReverse: bool)
    requires k <= |rows|
    requires Run(rows[..k], read, write, strict, isReverse).error.Some?
    ensures Run(rows, read, write, strict, isReverse) == Run(rows[..k], read, write, strict, isReverse)
  {
    if k < |rows| {
      var n := |rows| - 1;
      assert rows[..n][..k] == rows[..k];
      RunStopsAtError(rows[..n], k, read, write, strict, isReverse);
    } else {
      assert rows[..k] == rows;
    }
  }

  /** A throw on row `k` ends the whole transformation with that exception;
      the effects of rows before `k` remain, and no later row is applied. */
  lemma ThrowAbortsKeepingEarlierWrites(rows: seq<Row>, k: nat, read: ReadSide, write: WriteSide, strict: bool, isReverse: bool)
    requires k < |rows|
    requires Run(rows[..k], read, write, strict, isReverse).error.None?
    requires Step(rows[k], read, Run(rows[..k], read, write, strict, isReverse).side, strict, isReverse).error.Some?
    ensures Run(rows, read, write, strict, isReverse) ==
      Outcome(
        Run(rows[..k], read, write, strict, isReverse).side,
        Step(rows[k], read, Run(rows[..k], read, write, strict, isReverse).side, strict, isReverse).error)
  {
    RunSnoc(rows, k, read, write, strict, isReverse);
    RunStopsAtError(rows, k + 1, read, write, strict, isReverse);
  }

  /** Running `a ++ b` is running `a`, then `b` from where `a` left off. */
  lemma {:induction false} RunAppend(a: seq<Row>, b: seq<Row>, read: ReadSide, write: WriteSide, strict: bool, isReverse: bool)
    ensures Run(a + b, read, write, strict, isReverse) ==
      var ra := Run(a, read, write, strict, isReverse);
      if ra.error.Some? then ra else Run(b, read, ra.side, strict, isReverse)
  {
    if b == [] {
      assert a + b == a;
    } else {
      var n := |b| - 1;
      RunAppend(a, b[..n], read, write, strict, isReverse);
      assert (a + b)[..|a + b| - 1] == a + b[..n];
    }
  }

  /** A row whose active transform is `false` is skipped entirely: removing
      it from the configuration changes neither the result nor the error,
      whatever `strict` is. */
  lemma SkippedRowIsInert(a: seq<Row>, row: Row, b: seq<Row>, read: ReadSide, write: WriteSide, strict: bool, isReverse: bool)
    requires Active(row, isReverse).Skip?
    ensures Run(a + [row] + b, read, write, strict, isReverse) == Run(a + b, read, write, strict, isReverse)
  {
    RunAppend(a + [row], b, read, write, strict, isReverse);
    RunAppend(a, [row], read, write, strict, isReverse);
    RunAppend(a, b, read, write, strict, isReverse);
    var ra := Run(a, read, write, strict, isReverse);
    assert Run([row], read, ra.side, strict, isReverse) == Outcome(ra.side, None) by {
      assert [row][..0] == [];
    }
  }

  // ---------------------------------------------------------------------
  // Direction: the reverse walk is the forward walk of the swapped rows.

  /** The row read the other way round: names and transforms swapped. */
  function Flip(row: Row): Row {
    Row(row.TargetPropertyName(), Some(row.SourcePropertyName()), row.reverseTransform, row.transform)
  }

  function Flipped(rows: seq<Row>): (r: seq<Row>)
    ensures |r| == |rows| && forall i :: 0 <= i < |rows| ==> r[i] == Flip(rows[i])
  {
    seq(|rows|, i requires 0 <= i < |rows| => Flip(rows[i]))
  }

  /** In reverse, a row reads its target name and writes its source name
      with its reverse transform: exactly the forward walk of the flipped
      rows. */
  lemma {:induction false} ReverseIsFlippedForward(rows: seq<Row>, read: ReadSide, write: WriteSide, strict: bool)
    ensures Run(rows, read, write, strict, true) == Run(Flipped(rows), read, write, strict, false)
  {
    if rows != [] {
      var n := |rows| - 1;
      ReverseIsFlippedForward(rows[..n], read, write, strict);
      assert Flipped(rows)[..n] == Flipped(rows[..n]);
      var row := rows[n];
      assert ReadName(Flip(row), false) == ReadName(row, true);
      assert WriteName(Flip(row), false) == WriteName(row, true);
      assert Active(Flip(row), false) == Active(row, true);
    }
  }

  // ---------------------------------------------------------------------
  // Errors.

  /** Outside strict mode no PropertyMissing escapes: misses on either side
      only skip their row. Between two arrays nothing else can be raised,
      so a non-strict array-to-array walk always completes. */
  lemma {:induction false} NonStrictSwallowsMisses(rows: seq<Row>, read: ReadSide, write: WriteSide, isReverse: bool)
    ensures Run(rows, read, write, false, isReverse).error != Some(PropertyMissing)
    ensures read.ReadArray? && write.WriteArray? ==> Run(rows, read, write, false, isReverse).error.None?
    ensures write.WriteArray? ==> Run(rows, read, write, false, isReverse).side.WriteArray?
  {
    if rows != [] {
      NonStrictSwallowsMisses(rows[..|rows| - 1], read, write, isReverse);
    }
  }

  /** In strict mode an array-to-array walk raises PropertyMissing exactly
      when some active row's read key is absent from the read side. */
  lemma {:induction false} StrictArrayMissThrows(rows: seq<Row>, src: PhpArray, tgt: PhpArray, isReverse: bool)
    ensures Run(rows, ReadArray(src), WriteArray(tgt), true, isReverse).side.WriteArray?
    ensures Run(rows, ReadArray(src), WriteArray(tgt), true, isReverse).error.Some? <==>
      exists i :: 0 <= i < |rows| && !Active(rows[i], isReverse).Skip? && ReadName(rows[i], isReverse) !in src.values
    ensures Run(rows, ReadArray(src), WriteArray(tgt), true, isReverse).error.Some? ==>
      Run(rows, ReadArray(src), WriteArray(tgt), true, isReverse).error == Some(PropertyMissing)
  {
    if rows != [] {
      var n := |rows| - 1;
      StrictArrayMissThrows(rows[..n], src, tgt, isReverse);
      if exists i :: 0 <= i < n && !Active(rows[i], isReverse).Skip? && ReadName(rows[i], isReverse) !in src.values {
        var i :| 0 <= i < n && !Active(rows[i], isReverse).Skip? && ReadName(rows[i], isReverse) !in src.values;
        assert rows[..n][i] == rows[i];
      }
      if exists i :: 0 <= i < n && !Active(rows[..n][i], isReverse).Skip? && ReadName(rows[..n][i], isReverse) !in src.values {
        var i :| 0 <= i < n && !Active(rows[..n][i], isReverse).Skip? && ReadName(rows[..n][i], isReverse) !in src.values;
        assert rows[..n][i] == rows[i];
      }
    }
  }

  // ---------------------------------------------------------------------
  // What a row writes.

  /** On an array-to-array row: a miss leaves the write side as it was (and
      throws only in strict mode); otherwise only key `WriteName` is
      assigned, created if absent, with the read value itself for `true`
      and `f(read value, current value or null)` for a callable. */
  lemma ArrayRowSemantics(row: Row, src: PhpArray, tgt: PhpArray, strict: bool, isReverse: bool)
    ensures var t := Active(row, isReverse);
      var rn := ReadName(row, isReverse);
      var wn := WriteName(row, isReverse);
      var out := Step(row, ReadArray(src), WriteArray(tgt), strict, isReverse);
      && (t.Skip? ==> out == Outcome(WriteArray(tgt), None))
      && (!t.Skip? && rn !in src.values ==>
            out == Outcome(WriteArray(tgt), if strict then Some(PropertyMissing) else None))
      && (t.Identity? && rn in src.values ==>
            out == Outcome(WriteArray(tgt.Put(wn, src.values[rn])), None))
      && (t.Custom? && rn in src.values ==>
            out == Outcome(WriteArray(tgt.Put(wn, t.f(src.values[rn], if wn in tgt.values then tgt.values[wn] else VNull))), None))
  {
  }

  /** A row writing into an object either leaves its fields alone (skip, a
      caught miss or a throw) or sets exactly the write name, which then is
      declared somewhere in the chain. The value written by `true` from an
      object is the declared default of the first declaring class. */
  lemma ObjectRowSemantics(row: Row, read: ReadSide, chain: Chain, fields: map<string, Value>, strict: bool, isReverse: bool)
    ensures var out := Step(row, read, WriteObject(chain, fields), strict, isReverse);
      var wn := WriteName(row, isReverse);
      && out.side.WriteObject? && out.side.chain == chain
      && (out.side.fields == fields ||
          (!Active(row, isReverse).Skip? && out.error.None? && wn.NStr? &&
           FirstDeclaring(chain, wn.s).Some? &&
           wn.s in out.side.fields &&
           out.side.fields == fields[wn.s := out.side.fields[wn.s]]))
      && (Active(row, isReverse).Identity? && read.ReadObject? && out.side.fields != fields ==>
            out.side.fields == fields[wn.s := LookupDefault(read.chain, ReadName(row, isReverse)).value])
  {
  }

  /** A row whose read succeeds writes into an array, whatever the read
      side: key `WriteName` gets the read value for `true`, and for a
      callable `f(read value, current value or null)`. */
  lemma RowIntoArray(row: Row, read: ReadSide, tgt: PhpArray, strict: bool, isReverse: bool)
    requires !Active(row, isReverse).Skip?
    requires ReadValue(read, ReadName(row, isReverse)).Ok?
    ensures var t := Active(row, isReverse);
      var rv := ReadValue(read, ReadName(row, isReverse)).value;
      var wn := WriteName(row, isReverse);
      Step(row, read, WriteArray(tgt), strict, isReverse) ==
        Outcome(WriteArray(tgt.Put(wn, if t.Identity? then rv else t.f(rv, if wn in tgt.values then tgt.values[wn] else VNull))), None)
  {
  }

  /** A read that misses, from an array or an object, skips the row when
      not strict and is rethrown when strict; the write side, array or
      object, is left as it was. */
  lemma ReadMissAnySide(row: Row, read: ReadSide, write: WriteSide, strict: bool, isReverse: bool)
    requires !Active(row, isReverse).Skip?
    requires ReadValue(read, ReadName(row, isReverse)) == Err(PropertyMissing)
    ensures Step(row, read, write, strict, isReverse) == Outcome(write, if strict then Some(PropertyMissing) else None)
  {
  }

  /** A row whose read succeeds and whose write name some class of the
      target declares writes into the object: the read value for `true`,
      and for a callable `f(read value, current value)`, where the current
      value is the declared default of the first declaring class, not the
      field's present value. Nothing else changes and nothing is thrown. */
  lemma ObjectRowWrites(row: Row, read: ReadSide, chain: Chain, fields: map<string, Value>, strict: bool, isReverse: bool)
    requires !Active(row, isReverse).Skip?
    requires ReadValue(read, ReadName(row, isReverse)).Ok?
    requires WriteName(row, isReverse).NStr? && FirstDeclaring(chain, WriteName(row, isReverse).s).Some?
    ensures var t := Active(row, isReverse);
      var rv := ReadValue(read, ReadName(row, isReverse)).value;
      var wn := WriteName(row, isReverse).s;
      var k := FirstDeclaring(chain, wn).value;
      Step(row, read, WriteObject(chain, fields), strict, isReverse) ==
        Outcome(WriteObject(chain, fields[wn := if t.Identity? then rv else t.f(rv, DeclaredDefault(chain[k], wn))]), None)
  {
  }

  /** An object read that misses (no class in the chain declares the read
      name) skips the row when not strict and is rethrown when strict; the
      write side is left as it was either way. */
  lemma ObjectReadMiss(row: Row, chain: Chain, write: WriteSide, strict: bool, isReverse: bool)
    requires !Active(row, isReverse).Skip?
    requires ReadName(row, isReverse).NStr? && FirstDeclaring(chain, ReadName(row, isReverse).s).None?
    ensures Step(row, ReadObject(chain), write, strict, isReverse) ==
      Outcome(write, if strict then Some(PropertyMissing) else None)
  {
  }

  /** A write name that no class of the target declares misses, whether at
      the current-value read for a callable or at `setValue`: the row is
      skipped when not strict and rethrown when strict. */
  lemma ObjectWriteMiss(row: Row, read: ReadSide, chain: Chain, fields: map<string, Value>, strict: bool, isReverse: bool)
    requires !Active(row, isReverse).Skip?
    requires read.ReadObject? ==> ReadName(row, isReverse).NStr?
    requires WriteName(row, isReverse).NStr? && FirstDeclaring(chain, WriteName(row, isReverse).s).None?
    ensures Step(row, read, WriteObject(chain, fields), strict, isReverse) ==
      Outcome(WriteObject(chain, fields), if strict then Some(PropertyMissing) else None)
  {
  }

  /** After any walk into an array, the keys it had keep their order at the
      front, and every key that is not the write name of an active row
      still holds its old value. */
  lemma {:induction false} ArrayRunChangesOnlyWriteNames(rows: seq<Row>, read: ReadSide, tgt: PhpArray, strict: bool, isReverse: bool)
    requires tgt.Valid()
    ensures var out := Run(rows, read, WriteArray(tgt), strict, isReverse);
      && out.side.WriteArray? && out.side.arr.Valid()
      && |tgt.keys| <= |out.side.arr.keys| && out.side.arr.keys[..|tgt.keys|] == tgt.keys
      && forall k :: k in out.side.arr.values && !WrittenBy(rows, k, isReverse) ==>
           k in tgt.values && out.side.arr.values[k] == tgt.values[k]
  {
    if rows != [] {
      var n := |rows| - 1;
      ArrayRunChangesOnlyWriteNames(rows[..n], read, tgt, strict, isReverse);
      var before := Run(rows[..n], read, WriteArray(tgt), strict, isReverse);
      forall k | WrittenBy(rows[..n], k, isReverse)
        ensures WrittenBy(rows, k, isReverse)
      {
        var i :| 0 <= i < n && !Active(rows[..n][i], isReverse).Skip? && WriteName(rows[..n][i], isReverse) == k;
        assert rows[..n][i] == rows[i];
      }
      if before.error.None? {
        var row := rows[n];
        var a := before.side.arr;
        ArrayRowShape(row, read, a, strict, isReverse);
        var out := Step(row, read, before.side, strict, isReverse);
        if out.side.arr != a {
          var wn := WriteName(row, isReverse);
          assert WrittenBy(rows, wn, isReverse);
          PutSpec(a, wn, out.side.arr.values[wn]);
        }
      }
    }
  }

  /** A row writing into an array leaves it as it was, or assigns its write
      name and nothing else. */
  lemma ArrayRowShape(row: Row, read: ReadSide, a: PhpArray, strict: bool, isReverse: bool)
    ensures var out := Step(row, read, WriteArray(a), strict, isReverse);
      var wn := WriteName(row, isReverse);
      && out.side.WriteArray?
      && (out.side.arr == a ||
          (!Active(row, isReverse).Skip? && wn in out.side.arr.values &&
           out.side.arr == a.Put(wn, out.side.arr.values[wn])))
  {
  }

  /** Some active row writes the name `k`. */
  ghost predicate WrittenBy(rows: seq<Row>, k: Name, isReverse: bool) {
    exists i :: 0 <= i < |rows| && !Active(rows[i], isReverse).Skip? && WriteName(rows[i], isReverse) == k
  }

  // ---------------------------------------------------------------------
  // Round trip between two arrays.

  predicate CopiesBothWays(row: Row) {
    row.transform.Identity? && row.reverseTransform.Identity?
  }

  /** Forward, every copy-both-ways row with distinct target names leaves
      the source value under its target name. */
  lemma {:induction false} ForwardCopies(rows: seq<Row>, src: PhpArray, tgt: PhpArray, strict: bool)
    requires forall i :: 0 <= i < |rows| ==> CopiesBothWays(rows[i]) && rows[i].SourcePropertyName() in src.values
    requires forall i, j :: 0 <= i < j < |rows| ==> rows[i].TargetPropertyName() != rows[j].TargetPropertyName()
    ensures var out := Run(rows, ReadArray(src), WriteArray(tgt), strict, false);
      && out.error.None? && out.side.WriteArray?
      && forall i :: 0 <= i < |rows| ==>
           rows[i].TargetPropertyName() in out.side.arr.values &&
           out.side.arr.values[rows[i].TargetPropertyName()] == src.values[rows[i].SourcePropertyName()]
  {
    if rows != [] {
      var n := |rows| - 1;
      ForwardCopies(rows[..n], src, tgt, strict);
      forall i | 0 <= i < n
        ensures rows[..n][i] == rows[i]
      {
      }
    }
  }

  /** In reverse, if every target name holds its source value, each source
      name gets its value back. */
  lemma {:induction false} ReverseCopiesBack(rows: seq<Row>, tgt: PhpArray, src2: PhpArray, src: PhpArray, strict: bool)
    requires forall i :: 0 <= i < |rows| ==>
      CopiesBothWays(rows[i]) &&
      rows[i].SourcePropertyName() in src.values &&
      rows[i].TargetPropertyName() in tgt.values &&
      tgt.values[rows[i].TargetPropertyName()] == src.values[rows[i].SourcePropertyName()]
    ensures var out := Run(rows, ReadArray(tgt), WriteArray(src2), strict, true);
      && out.error.None? && out.side.WriteArray?
      && forall i :: 0 <= i < |rows| ==>
           rows[i].SourcePropertyName() in out.side.arr.values &&
           out.side.arr.values[rows[i].SourcePropertyName()] == src.values[rows[i].SourcePropertyName()]
  {
    if rows != [] {
      var n := |rows| - 1;
      ReverseCopiesBack(rows[..n], tgt, src2, src, strict);
      forall i | 0 <= i < n
        ensures rows[..n][i] == rows[i]
      {
      }
    }
  }

  /** `transform` then `reverseTransform` between arrays gives every
      copy-both-ways row its source value back, provided the target names
      are distinct and the source has every key. */
  lemma ArrayRoundTrip(rows: seq<Row>, src: PhpArray, tgt: PhpArray, src2: PhpArray, strict: bool)
    requires forall i :: 0 <= i < |rows| ==> CopiesBothWays(rows[i]) && rows[i].SourcePropertyName() in src.values
    requires forall i, j :: 0 <= i < j < |rows| ==> rows[i].TargetPropertyName() != rows[j].TargetPropertyName()
    ensures var fwd := Run(rows, ReadArray(src), WriteArray(tgt), strict, false);
      && fwd.error.None? && fwd.side.WriteArray?
      && var back := Run(rows, ReadArray(fwd.side.arr), WriteArray(src2), strict, true);
      && back.error.None? && back.side.WriteArray?
      && forall i :: 0 <= i < |rows| ==>
           rows[i].SourcePropertyName() in back.side.arr.values &&
           back.side.arr.values[rows[i].SourcePropertyName()] == src.values[rows[i].SourcePropertyName()]
  {
    ForwardCopies(rows, src, tgt, strict);
    var fwd := Run(rows, ReadArray(src), WriteArray(tgt), strict, false);
    ReverseCopiesBack(rows, fwd.side.arr, src2, src, strict);
  }

  // ---------------------------------------------------------------------
  // The engine.

  /** A data instance: an array (passed by reference, so a new value comes
      back) or an object (updated in place). */
  datatype Data = ArrayData(arr: PhpArray) | ObjectData(obj: Instance)

  function Footprint(d: Data): set<object> {
    if d.ObjectData? then {d.obj} else {}
  }

  function ReadSideOf(d: Data): ReadSide {
    match d
    case ArrayData(a) => ReadArray(a)
    case ObjectData(o) => ReadObject(o.chain)
  }

  function WriteSideOf(d: Data): WriteSide
    reads Footprint(d)
  {
    match d
    case ArrayData(a) => WriteArray(a)
    case ObjectData(o) => WriteObject(o.chain, o.fields)
  }

  class Transformer {
    const config: Configuration

    constructor (transformerConfiguration: Configuration)
      ensures config == transformerConfiguration
    {
      config := transformerConfiguration;
    }

    /** Reads `source`, writes `target`: the rows' forward direction. */
    method Transform(source: Data, target: Data, strict: bool := true) returns (newTarget: Data, error: Option<Error>)
      requires config.Valid()
      modifies Footprint(target)
      ensures target.ObjectData? ==> newTarget == target
      ensures target.ArrayData? ==> newTarget.ArrayData?
      ensures Run(config.Rows(), ReadSideOf(source), old(WriteSideOf(target)), strict, false) ==
        Outcome(WriteSideOf(newTarget), error)
    {
      newTarget, error := ProcessTransformation(source, target, strict, false);
    }

    /** Reads `target`, writes `source`: the rows' reverse direction. */
    method ReverseTransform(target: Data, source: Data, strict: bool := true) returns (newSource: Data, error: Option<Error>)
      requires config.Valid()
      modifies Footprint(source)
      ensures source.ObjectData? ==> newSource == source
      ensures source.ArrayData? ==> newSource.ArrayData?
      ensures Run(config.Rows(), ReadSideOf(target), old(WriteSideOf(source)), strict, true) ==
        Outcome(WriteSideOf(newSource), error)
    {
      newSource, error := ProcessTransformation(target, source, strict, true);
    }

    /** Dispatches on the shapes of the two sides. */
    method ProcessTransformation(source: Data, target: Data, strict: bool, isReverse: bool)
      returns (newTarget: Data, error: Option<Error>)
      requires config.Valid()
      modifies Footprint(target)
      ensures target.ObjectData? ==> newTarget == target
      ensures target.ArrayData? ==> newTarget.ArrayData?
      ensures Run(config.Rows(), ReadSideOf(source), old(WriteSideOf(target)), strict, isReverse) ==
        Outcome(WriteSideOf(newTarget), error)
    {
      match source {
        case ArrayData(s) =>
          match target {
            case ArrayData(t) =>
              var result;
              result, error := TransformArrayToArray(s, t, strict, isReverse);
              newTarget := ArrayData(result);
            case ObjectData(t) =>
              error := TransformArrayToObject(s, t, strict, isReverse);
              newTarget := target;
          }
        case ObjectData(s) =>
          match target {
            case ArrayData(t) =>
              var result;
              result, error := TransformObjectToArray(s, t, strict, isReverse);
              newTarget := ArrayData(result);
            case ObjectData(t) =>
              error := TransformObjectToObject(s, t, strict, isReverse);
              newTarget := target;
          }
      }
    }

    method TransformArrayToArray(source: PhpArray, target: PhpArray, strict: bool, isReverse: bool)
      returns (result: PhpArray, error: Option<Error>)
      requires config.Valid()
      ensures Run(config.Rows(), ReadArray(source), WriteArray(target), strict, isReverse) ==
        Outcome(WriteArray(result), error)
    {
      var rows := config.GetIterator();
      var read, write := ReadArray(source), WriteArray(target);
      result := target;
      for i := 0 to |rows|
        invariant Run(rows[..i], read, write, strict, isReverse) == Outcome(WriteArray(result), None)
      {
        RunSnoc(rows, i, read, write, strict, isReverse);
        var row := rows[i];
        var transform := Active(row, isReverse);
        if !transform.Skip? {
          var readName := ReadName(row, isReverse);
          if readName !in source.values {
            if strict {
              RunStopsAtError(rows, i + 1, read, write, strict, isReverse);
              assert rows[..|rows|] == rows;
              return result, Some(PropertyMissing);
            }
            continue;
          }
          var writeName := WriteName(row, isReverse);
          var value :=
            if transform.Identity? then source.values[readName]
            else transform.f(source.values[readName], if writeName in result.values then result.values[writeName] else VNull);
          result := result.Put(writeName, value);
        }
      }
      assert rows[..|rows|] == rows;
      error := None;
    }

    method TransformObjectToArray(source: Instance, target: PhpArray, strict: bool, isReverse: bool)
      returns (result: PhpArray, error: Option<Error>)
      requires config.Valid()
      ensures Run(config.Rows(), ReadObject(source.chain), WriteArray(target), strict, isReverse) ==
        Outcome(WriteArray(result), error)
    {
      var rows := config.GetIterator();
      var read, write := ReadObject(source.chain), WriteArray(target);
      result := target;
      for i := 0 to |rows|
        invariant Run(rows[..i], read, write, strict, isReverse) == Outcome(WriteArray(result), None)
      {
        RunSnoc(rows, i, read, write, strict, isReverse);
        var row := rows[i];
        var transform := Active(row, isReverse);
        if !transform.Skip? {
          var readName := ReadName(row, isReverse);
          var writeName := WriteName(row, isReverse);
          var got := GetValue(source.chain, readName);
          if got.Err? {
            assert Step(row, read, WriteArray(result), strict, isReverse) ==
              Outcome(WriteArray(result), if strict || got.error != PropertyMissing then Some(got.error) else None);
            if strict || got.error != PropertyMissing {
              RunStopsAtError(rows, i + 1, read, write, strict, isReverse);
              assert rows[..|rows|] == rows;
              return result, Some(got.error);
            }
            continue;
          }
          var value :=
            if transform.Identity? then got.value
            else transform.f(got.value, if writeName in result.values then result.values[writeName] else VNull);
          assert Step(row, read, WriteArray(result), strict, isReverse) ==
            Outcome(WriteArray(result.Put(writeName, value)), None);
          result := result.Put(writeName, value);
        }
      }
      assert rows[..|rows|] == rows;
      error := None;
    }

    method TransformArrayToObject(source: PhpArray, target: Instance, strict: bool, isReverse: bool)
      returns (error: Option<Error>)
      requires config.Valid()
      modifies target
      ensures Run(config.Rows(), ReadArray(source), WriteObject(target.chain, old(target.fields)), strict, isReverse) ==
        Outcome(WriteObject(target.chain, target.fields), error)
    {
      error := TransformIntoObject(ReadArray(source), target, strict, isReverse);
    }

    method TransformObjectToObject(source: Instance, target: Instance, strict: bool, isReverse: bool)
      returns (error: Option<Error>)
      requires config.Valid()
      modifies target
      ensures Run(config.Rows(), ReadObject(source.chain), WriteObject(target.chain, old(target.fields)), strict, isReverse) ==
        Outcome(WriteObject(target.chain, target.fields), error)
    {
      error := TransformIntoObject(ReadObject(source.chain), target, strict, isReverse);
    }

    /** The loop the two object-target transformations share: the rows in
        order, each applied in place, stopping at the first exception that
        is not caught. */
    method TransformIntoObject(read: ReadSide, target: Instance, strict: bool, isReverse: bool)
      returns (error: Option<Error>)
      requires config.Valid()
      modifies target
      ensures Run(config.Rows(), read, WriteObject(target.chain, old(target.fields)), strict, isReverse) ==
        Outcome(WriteObject(target.chain, target.fields), error)
    {
      var rows := config.GetIterator();
      var write := WriteObject(target.chain, target.fields);
      for i := 0 to |rows|
        invariant Run(rows[..i], read, write, strict, isReverse) == Outcome(WriteObject(target.chain, target.fields), None)
      {
        RunSnoc(rows, i, read, write, strict, isReverse);
        var thrown := ApplyRowToObject(rows[i], read, target, strict, isReverse);
        if thrown.Some? {
          RunStopsAtError(rows, i + 1, read, write, strict, isReverse);
          assert rows[..|rows|] == rows;
          return thrown;
        }
      }
      assert rows[..|rows|] == rows;
      error := None;
    }

    /** The `try` block for one row writing into an object: read through
        `getValue` (or the array key), fetch the current value for a
        callable, `setValue`; a PropertyMissing is caught unless `strict`. */
    method ApplyRowToObject(row: Row, read: ReadSide, target: Instance, strict: bool, isReverse: bool)
      returns (thrown: Option<Error>)
      modifies target
      ensures Step(row, read, WriteObject(target.chain, old(target.fields)), strict, isReverse) ==
        Outcome(WriteObject(target.chain, target.fields), thrown)
    {
      var transform := Active(row, isReverse);
      if transform.Skip? {
        return None;
      }
      var readName := ReadName(row, isReverse);
      var writeName := WriteName(row, isReverse);
      var caught: Option<Error> := None;
      var got := ReadFrom(read, readName);
      if got.Err? {
        caught := Some(got.error);
      } else {
        var value := got.value;
        if transform.Custom? {
          var current := GetValue(target.chain, writeName);
          if current.Err? {
            caught := Some(current.error);
          } else {
            value := transform.f(got.value, current.value);
          }
        }
        if caught.None? {
          caught := SetValue(target, writeName, value);
        }
      }
      if caught.Some? && (strict || caught.value != PropertyMissing) {
        thrown := caught;
      } else {
        thrown := None;
      }
    }

    /** The value a row reads: the array key, or `getValue` on the object. */
    method ReadFrom(read: ReadSide, name: Name) returns (r: Result<Value>)
      ensures r == ReadValue(read, name)
    {
      match read {
        case ReadArray(a) =>
          r := if name in a.values then Ok(a.values[name]) else Err(PropertyMissing);
        case ReadObject(chain) =>
          r := GetValue(chain, name);
      }
    }
  }
}
